=== FILE: README.md ===
# klepto MySQL dumper, modelled in Dafny

This project models the MySQL dumper of klepto (`pkg/dumper/mysql/dumper.go`).
The dumper receives the rows of one table from a reader over a channel and
writes them into the target database, one transaction per batch.

The model follows the file's structure, one module per concern:

- `Base` holds the shared vocabulary: results, options, database call
  outcomes, the dumper's error kinds, and `Join` for `strings.Join`.
- `Quoting` covers `quoteIdentifier`: backtick quoting with doubled
  backticks, and the reading that inverts it.
- `Values` covers the type switch every field goes through. `nil` becomes
  `NULL`, a string stays as it is, and a byte slice becomes its raw text.
  Any other type reaches the forced `.(string)` cast, which panics. A column
  missing from the row is `nil`, because a Go map lookup of a missing key
  yields the zero value.
- `Statements` covers the `LOAD DATA` query, which is built from the raw
  table name, the quoted table name and the quoted column list. It also
  covers the `replace into` statement, whose tuples join the raw field texts.
  Both come with readers that take the text back apart.
- `Batches` covers reading one batch from the channel. The loop reads a row
  before it compares the count with `batch`. So a batch takes
  `min(batch, available)` rows when `batch` is positive, and one row when
  `batch` is zero or negative and the channel is not empty. `BatchSizes`
  gives the sizes the dumper's loop produces.
- `Strategies` covers `insertIntoTable` (streaming to `LOAD DATA`) and
  `insertIntoTableReplace` (buffered `replace into`). Both appear as pure
  functions, and the source's loops appear as methods proved equal to them.
- `Session` covers the `sync.Once` guard that turns on the server-wide
  `local_infile` setting, and `Close`, which turns it off again and reports
  the reset's error, or else the close error.
- `Tables` covers `trunkInsert` and the `for inserted == batch` loop of
  `DumpTable`.

Every database call is a scripted outcome. `TxnPlan` gives the outcomes of
one transaction's calls, and the loop takes the i-th plan for its i-th
transaction. The producer goroutine is read in sequence: the records it
writes to the pipe are the batch's encodings, and the count it returns is
the number of rows it consumed.

Properties proved:

- Quoting is injective and `Unquote` is its exact inverse.
- The column list reads back to the columns.
- For one table, the `LOAD DATA` query determines its column list.
- A replace statement reads back to its records, provided no field contains
  `,` or `)` and every record has a field. A concrete pair of records shows that without this proviso
  the statement is ambiguous.
- A committed batch holds the next `TakeCount` rows in channel order.
- With every call succeeding, every row encodable, and positive batch size
  `B` over `R` rows, the loop calls `trunkInsert` `R / B + 1` times. All batches but the last hold
  `B` rows and the last holds `R % B`. So an exact multiple ends with an
  empty transaction, and every row is inserted once, in order.
- Whatever the database does, every committed transaction but the last is
  full, and the committed records are the encodings of a prefix of the
  channel.
- A (k+1)-th transaction that does not commit stops the loop after exactly
  `k` full batches, which stay committed. A failed begin or commit is not
  rolled back, a failed insert is, and a value of unhandled type stops the
  loop with the cast panic.
- The guard's body runs only once.
- `Close` resets the setting exactly when the guard turned it on. The
  server's setting ends where it started whenever the reset succeeds.

Where the code does something a caller might not expect, the model follows
the code:

- When both the reset and the connection close fail, `Close` wraps only the
  reset's error. The close error is dropped, not combined.
- An error in the loop ends the process through `log.Panic`, not through an
  error returned to the caller. The model records this as the `Aborted`
  stop.
- A value of an unhandled type is not just logged: the forced `.(string)`
  cast panics. The model records this as the `CastPanicked` stop.
- A commit failure, or a panic inside the strategy, leaves the transaction
  without a rollback. Only a failed insert is rolled back.

## Model

| member | source | states |
|---|---|---|
| `Quoting.QuoteIdentifier` | pkg/dumper/mysql/dumper.go:285-287 | The quoted name is at least two characters longer than the name and starts and ends with a backtick. A name without backticks is only wrapped. Unquoting the result gives the name back. |
| `Quoting.UnquoteIsInverse` | pkg/dumper/mysql/dumper.go:285-287 | A text unquotes to `name` if and only if it is the quoting of `name`. |
| `Quoting.QuoteInjective` | pkg/dumper/mysql/dumper.go:285-287 | Different names never quote to the same identifier. |
| `Quoting.Escape` | pkg/dumper/mysql/dumper.go:286 | Doubling the backticks never makes a name shorter. What the escaped text holds is stated by `EscapeNoBacktick`, `ReadEscaped` and `ReadBodySound`. |
| `Quoting.EscapeNoBacktick` | pkg/dumper/mysql/dumper.go:286 | Replacing backticks by doubled backticks leaves a name without backticks unchanged. |
| `Quoting.ReadEscaped` | pkg/dumper/mysql/dumper.go:286 | Reading an escaped name up to its first lone backtick gives the name and the text after the backtick. |
| `Quoting.ReadBodySound` | pkg/dumper/mysql/dumper.go:286 | Whatever the reader accepts is exactly an escaped name, its closing backtick, and the rest. |
| `Values.Lookup` | pkg/dumper/mysql/dumper.go:178 | A result other than nil is the row's value for the column. The result is nil exactly when the column is missing from the row or holds nil, as a Go map lookup of a missing key yields the zero value. |
| `Values.Encode` | pkg/dumper/mysql/dumper.go:178-188 | nil gives `NULL`, a string is itself, and a byte slice gives text of the same length with the same codes. Exactly the unhandled types fail, carrying the value that panics. |
| `Values.MissingColumnIsNull` | pkg/dumper/mysql/dumper.go:178-180 | A column missing from the row encodes as `NULL`. |
| `Values.NullAndNullTextCollide` | pkg/dumper/mysql/dumper.go:179-182 | A nil value and the string "NULL" give the same field. |
| `Values.BlobTextRoundTrip` | pkg/dumper/mysql/dumper.go:183-184 | Converting a byte slice to text loses nothing. |
| `Values.EncodeRow` | pkg/dumper/mysql/dumper.go:176-189 | A row encodes if and only if no column holds an unhandled type. Field i is then the encoding of column i's value. Otherwise the failure is the first unhandled value in column order. |
| `Values.EncodeFields` | pkg/dumper/mysql/dumper.go:176-189 | The nested loop over the columns returns the row's encoding, or the first value at which the cast panics. |
| `Values.EncodeRowPrefixFails` | pkg/dumper/mysql/dumper.go:177-188 | Once a prefix of the columns hits an unhandled value, the whole row fails with that value. |
| `Values.EncodeRows` | pkg/dumper/mysql/dumper.go:169-199 | A successful encoding has one record per row. `EncodeRowsMeaning` states what the records are, and that a failure carries the unhandled value of the first row that does not encode. |
| `Values.EncodeRowsMeaning` | pkg/dumper/mysql/dumper.go:169-199 | A sequence of rows encodes if and only if every row does. Record i is then row i's encoding, with one field per column. Otherwise the failure is that of the first row, in channel order, that does not encode. |
| `Values.EncodeRowsFirstFailure` | pkg/dumper/mysql/dumper.go:169-199 | A failed encoding carries the failure of the first row that does not encode: every earlier row encodes. |
| `Values.EncodeRowsPrefixFails` | pkg/dumper/mysql/dumper.go:169-199 | Once a prefix of the rows fails, all rows fail in the same way. |
| `Batches.TakeCount` | pkg/dumper/mysql/dumper.go:169-199 | A batch never reads more rows than the channel holds. It reads `min(batch, available)` rows for a positive batch, and `min(1, available)` otherwise. |
| `Batches.Produce` | pkg/dumper/mysql/dumper.go:169-199 | A batch succeeds exactly when its `TakeCount` rows encode. It then holds their encodings, and the channel continues with the rows it did not read. |
| `Batches.ReadBatch` | pkg/dumper/mysql/dumper.go:169-199 | The receive, encode, count and break loop computes exactly the batch `Produce` describes, including the failure at the first unhandled value. |
| `Batches.BatchSizes` | pkg/dumper/mysql/dumper.go:76-83 | There is at least one batch. Every batch but the last is full, and the last is shorter than a full one, which is what ends the loop. |
| `Batches.BatchSizesShape` | pkg/dumper/mysql/dumper.go:76-83 | When every batch commits, there are `rows / batch + 1` batches. All but the last are full, the last holds `rows % batch`, and the sizes add up to `rows`. |
| `Statements.QuoteAll` | pkg/dumper/mysql/dumper.go:146-149 | Each quoted column unquotes to its column, in order. |
| `Statements.ColumnListRoundTrip` | pkg/dumper/mysql/dumper.go:146-155 | The comma-joined quoted columns read back to the columns, even when names contain backticks or commas. |
| `Statements.LoadDataQuery` | pkg/dumper/mysql/dumper.go:151-156 | The query starts with the virtual file name `Reader::` followed by the raw table name. After `INTO TABLE` comes the table's quoted identifier, which reads back to the table. After the format clauses come `(`, a column list that reads back to the columns, and a closing `)`. |
| `Statements.LoadDataQueryClauses` | pkg/dumper/mysql/dumper.go:152 | The quoted target is preceded by `INTO TABLE` and followed by the clauses saying that fields are terminated by `,` and enclosed and escaped by `"`. |
| `Statements.LoadDataQueryInjective` | pkg/dumper/mysql/dumper.go:151-156 | For one table, different column lists give different queries. |
| `Statements.ReplaceStatement` | pkg/dumper/mysql/dumper.go:233-261 | No contract of its own. `ReplaceRoundTrip` states its meaning: when no field contains `,` or `)` and every record has a field, the statement reads back to its records. `ReplaceIsAmbiguous` shows that without this proviso two record lists can give one statement. |
| `Statements.ReplaceIsAmbiguous` | pkg/dumper/mysql/dumper.go:258-261 | Field texts are not escaped, so the records `[["a,b", "c"]]` and `[["a", "b,c"]]`, of the same width as every record of one table, both give `replace into t values (a,b,c)`. |
| `Statements.ReplaceRoundTrip` | pkg/dumper/mysql/dumper.go:233-261 | When no field contains `,` or `)` and every record has a field, the statement reads back to its records. |
| `Strategies.InsertIntoTable` | pkg/dumper/mysql/dumper.go:140-215 | A failed column lookup returns a `GetColumns` error. After it, a failed foreign-key statement returns a `DisableForeignKeys` error. After both succeed, the call crashes exactly when the batch's `TakeCount` rows do not encode, and the crash carries the value of unhandled type at which their encoding fails. With the batch encoded, a failed query returns an `ExecuteQuery` error. The call writes exactly when all three calls succeed and the batch encodes. It then consumes the batch's rows in order, and its statements are the foreign-key statement and the `LOAD DATA` query. |
| `Strategies.InsertIntoTableReplace` | pkg/dumper/mysql/dumper.go:217-283 | A failed column lookup returns a `GetColumns` error. After a successful lookup, the call crashes exactly when the batch's `TakeCount` rows do not encode, and the crash carries the value of unhandled type at which their encoding fails. After a successful column lookup, an empty channel executes nothing and returns 0. For a non-empty channel whose batch encodes, a failed foreign-key statement returns a `DisableForeignKeys` error, and after it a failed statement returns an `ExecuteQuery` error. The call writes exactly when the calls it makes succeed and the batch encodes. It then consumes the batch's rows in order, and its statements are the foreign-key statement and the replace statement of the records. |
| `Strategies.RunStrategy` | pkg/dumper/mysql/dumper.go:94 | Whichever strategy runs, a failed column lookup returns a `GetColumns` error. A crash carries the value of unhandled type at which the encoding of the batch's `TakeCount` rows fails. |
| `Strategies.StrategiesAgree` | pkg/dumper/mysql/dumper.go:140-283 | When every call succeeds, both strategies consume the same rows, send the same records, and crash on the same value. |
| `Strategies.ReplaceStatementSnoc` | pkg/dumper/mysql/dumper.go:258-261 | Appending a record appends a comma (except before the first tuple) and its tuple. |
| `Strategies.ReplaceLoop` | pkg/dumper/mysql/dumper.go:236-267 | The buffered read loop consumes the same batch as `Produce`, and its buffer is the replace statement of the records. |
| `Strategies.BuildReplace` | pkg/dumper/mysql/dumper.go:217-283 | The statement-by-statement function returns the outcome `InsertIntoTableReplace` describes. |
| `Session.NewDumper` | pkg/dumper/mysql/dumper.go:36-42 | A new dumper has not run its guard, has nothing to undo, and keeps the batch size. |
| `Session.EnsureLocalInfile` | pkg/dumper/mysql/dumper.go:56-74 | Only the first call probes the server. The setting is turned on, and marked for reset, exactly when the read succeeds and finds it off. The first call issues `SELECT @@GLOBAL.local_infile`, then `SET GLOBAL local_infile=1` only when the read finds the setting off, and nothing else. An error is returned on the first call only: the read's fault when the read fails, and the fault of `SET GLOBAL local_infile=1` when the setting was off and enabling it fails. |
| `Session.GuardRunsOnce` | pkg/dumper/mysql/dumper.go:56-71 | After the guard has run, another call issues nothing and changes nothing, whatever the server would answer. |
| `Session.GuardAllSpent` | pkg/dumper/mysql/dumper.go:56-71 | Once the guard is spent, any number of further tables leave the dumper and the server alone. |
| `Session.Close` | pkg/dumper/mysql/dumper.go:118-138 | The reset is issued exactly when the dumper turned the setting on, and nothing else is issued. The result is nil exactly when the close and any reset succeed. With both failing, the error wraps the reset's cause. The setting is turned off exactly when a reset is issued and succeeds; otherwise it is unchanged. |
| `Session.SettingRestored` | pkg/dumper/mysql/dumper.go:56-138 | Over creation, the guard for any number of tables, and `Close`: the reset is issued exactly when the first guard turned the setting on, and the setting ends where it started when the reset succeeds. |
| `Session.ResetFailureLeavesSettingOn` | pkg/dumper/mysql/dumper.go:118-138 | If the guard turned the setting on and the reset fails, the server still accepts local files and `Close` reports the reset's cause. |
| `Tables.TrunkInsert` | pkg/dumper/mysql/dumper.go:88-115 | It commits exactly when begin, the strategy and commit all succeed, with `TakeCount` records. The committed transaction holds the strategy's statements and records. A failed begin is an `OpenTransaction` error with no rollback. A failed strategy is rolled back and wrapped as `InsertRows`. A failed commit is a `CommitTransaction` error with no rollback. A strategy crash passes its value through. |
| `Tables.TrunkConsumes` | pkg/dumper/mysql/dumper.go:88-115 | A committed batch holds the next rows of the channel, in order, encoded. |
| `Tables.TrunkAllOk` | pkg/dumper/mysql/dumper.go:88-115 | When every call succeeds and the rows one batch reads encode, the transaction commits the next `TakeCount` rows. |
| `Tables.Drain` | pkg/dumper/mysql/dumper.go:76-83 | No contract of its own. Its meaning is stated by `DrainBatchSizes` and `DrainConsumesInOrder` for any database behaviour, by `DrainAllOk` and `DrainAllOkCalls` when every call succeeds, and by `DrainStopsAfter`, `DrainStopCauses` and `DrainBeginFails` when a transaction fails after `k` full batches. |
| `Tables.DrainBatchSizes` | pkg/dumper/mysql/dumper.go:76-83 | Whatever the database does, all committed batches but the last are full and no more rows are committed than the channel holds. A finished loop committed at least once, and with a positive batch size it committed every row. |
| `Tables.DrainConsumesInOrder` | pkg/dumper/mysql/dumper.go:76-83 | Whatever the database does, the committed records are the encodings of the first `Count` rows of the channel, each once and in order. |
| `Tables.DrainAllOk` | pkg/dumper/mysql/dumper.go:76-83 | With every call succeeding and every row encodable, the loop finishes. The batch sizes are `BatchSizes`, and the records are the encodings of all rows in order. |
| `Tables.DrainAllOkCalls` | pkg/dumper/mysql/dumper.go:76-83 | In that case `trunkInsert` commits `rows / batch + 1` times: full batches, then `rows % batch` rows. Together they hold every row. |
| `Tables.DrainSkipsFullBatches` | pkg/dumper/mysql/dumper.go:76-83 | When the first `k` transactions see every call succeed and their full batches encode, the loop commits those `k` full batches and then runs as it would on the remaining rows and plans. |
| `Tables.DrainStopsAfter` | pkg/dumper/mysql/dumper.go:76-115 | When the first `k` transactions succeed on full batches and the next does not commit, for any reason, the loop stops with exactly those `k` full batches committed. The stop is that transaction's error, rolled back only for a failed insert, or its cast panic. Only the rows of the `k` batches need to encode. |
| `Tables.DrainStopCauses` | pkg/dumper/mysql/dumper.go:76-115 | After `k` full batches, a failed insert stops the loop with the `InsertRows` error, rolled back. A failed commit stops it with the `CommitTransaction` error and no rollback. A value of unhandled type stops it with the cast panic. The `k` batches stay committed in each case. |
| `Tables.DrainBeginFails` | pkg/dumper/mysql/dumper.go:76-91 | If the first `k` transactions succeed and the next cannot begin, the loop stops after exactly `k` full batches, with the begin error and no rollback. Only the rows of those batches need to encode. |
| `Tables.ZeroBatchSpins` | pkg/dumper/mysql/dumper.go:76-83 | With batch size 0 and an exhausted channel, a successful transaction commits 0 rows and leaves the channel as it was. So `inserted == batch` holds again and the loop does not end. |
| `Tables.NonPositiveBatchDumpsOneRow` | pkg/dumper/mysql/dumper.go:76-83 | A batch size of zero or less commits at most one transaction of at most one row. |
| `Tables.RunBatches` | pkg/dumper/mysql/dumper.go:76-83 | The loop that starts from `inserted := batch` produces the run `Drain` describes. |
| `Tables.FullBatchesProduct` | pkg/dumper/mysql/dumper.go:76-83 | `k` full batches hold `k * batch` rows. |
| `Tables.DumpTable` | pkg/dumper/mysql/dumper.go:54-86 | After `DumpTable` the guard is spent. It returns the guard's error exactly when the first call's probe fails, before any row is read, and then the dumper has not been marked for reset. That error is the read's fault when the read fails, and the enable's fault otherwise. When the first call's loop runs, `local_infile` is on. |

## Left out

- `pkg/dumper/mysql/mysql.go` (driver registration and connection opening) is not part of this model.
- `DumpStructure` executes one statement and returns its error. It is a single call with no logic of its own.
- The producer goroutine, the `io.Pipe`, the reader-handler registry and the `atomic` counter are read in sequence. In `insertIntoTable` the model runs the foreign-key statement, then the producer, then the query. So a producer panic on an unhandled value is placed after a failed foreign-key statement and before the query's outcome, although in the source the two race. Interleavings, blocking, and rows the producer consumes after an error are not modelled.
- The CSV writer's quoting of records, and its write errors (which are only logged), are not modelled. The `LOAD DATA` strategy's records are the field lists before CSV encoding.
- SQL execution is not modelled. Each call is a scripted success or failure, and the server's data is not modelled, except the `local_infile` setting.
- Logging, `fmt.Println` of the query, and the error message texts are left out. Errors are datatypes that keep the wrapped cause.
- The replace strategy's 1 MB buffer size hint only reserves memory, so it is left out.
- A failed rollback is only logged, so its outcome is not modelled.
- `trunkInsert` always calls `insertIntoTable`. `insertIntoTableReplace` is modelled as a second strategy that the caller may choose.
- `columnsQuoted` is computed but unused in `insertIntoTableReplace`, so it is left out of that strategy.
- `Tables.Drain`: requires `batch != 0` or a non-empty channel. This is the one case where the source's loop never ends, shown by `Tables.ZeroBatchSpins`.
- `Tables.RunBatches`: same requirement as `Drain`.
- `Tables.DumpTable`: same requirement as `Drain`, unless the guard returns its error first. Its contract covers only the guard. What the loop does is stated by the `Drain` lemmas.
- `Batches.TakeCount`: the `int64` counters `inserted` and `batch` are unbounded integers. Overflow would need more than 2^63 rows.

=== FILE: base.dfy ===
/**
 * Shared vocabulary of the MySQL dumper model: optional values and results,
 * the abstract outcome of a database call, the dumper's error chain, and
 * `strings.Join`.
 */
module Base {

  datatype Option<+T> = None | Some(value: T)

  datatype Result<+T, +E> = Success(value: T) | Failure(error: E)

  /** An error reported by the database driver; its text is not modelled. */
  datatype Fault = Fault(message: string)

  /** The outcome of one database call whose result value is not used. */
  datatype DbStatus = Ok | Err(fault: Fault)

  /**
   * The errors `trunkInsert` can return, one constructor per `fmt.Errorf`
   * wrapping in the dumper (`%w` keeps the cause).
   */
  datatype Error =
    | GetColumns(cause: Fault)          // "failed to get columns"
    | DisableForeignKeys(cause: Fault)  // "failed to disable foreign key checks"
    | ExecuteQuery(cause: Fault)        // "failed to execute query"
    | OpenTransaction(cause: Fault)     // "failed to open transaction"
    | InsertRows(inner: Error)          // "failed to insert rows"
    | CommitTransaction(cause: Fault)   // "failed to commit transaction"

  /**
   * The scripted outcomes of the database calls one `trunkInsert` makes:
   * `Begin`, the reader's `GetColumns`, `SET foreign_key_checks = 0;`, the
   * insert statement itself and `Commit`. A call that is never made (because
   * an earlier one failed, or because the strategy skips it) ignores its entry.
   */
  datatype TxnPlan = TxnPlan(
    begin: DbStatus,
    getColumns: DbStatus,
    foreignKeys: DbStatus,
    exec: DbStatus,
    commit: DbStatus)

  /** The plan in which every call succeeds. */
  const AllOk := TxnPlan(Ok, Ok, Ok, Ok, Ok)

  function Min(a: int, b: int): int {
    if a <= b then a else b
  }

  /** Go's `strings.Join`: the parts with `sep` between neighbours. */
  function Join(parts: seq<string>, sep: string): string
  {
    if |parts| == 0 then ""
    else if |parts| == 1 then parts[0]
    else parts[0] + sep + Join(parts[1..], sep)
  }

  /** Appending one more part adds one separator and the part at the end. */
  lemma {:induction false} JoinSnoc(parts: seq<string>, last: string, sep: string)
    ensures Join(parts + [last], sep)
         == if |parts| == 0 then last else Join(parts, sep) + sep + last
  {
    if |parts| == 0 {
      assert parts + [last] == [last];
    } else if |parts| == 1 {
      assert parts + [last] == [parts[0], last];
      assert [parts[0], last][1..] == [last];
    } else {
      assert (parts + [last])[1..] == parts[1..] + [last];
      JoinSnoc(parts[1..], last, sep);
    }
  }
}

=== FILE: batches.dfy ===
/**
 * Reading one batch from the row channel, as both strategies do it, and the
 * batch sizes the dumper's loop produces. The channel is the finite sequence
 * of rows it will deliver before it is closed.
 */
module Batches {
  import opened Base
  import opened Values

  /**
   * How many rows one batch reads from a channel holding `available` rows.
   * The loop reads a row before it compares the count with `batch`, so a
   * batch size of zero or less still reads one row when there is one.
   */
  function TakeCount(available: nat, batch: int): (n: nat)
    ensures n <= available
    ensures batch > 0 ==> n == Min(batch, available)
    ensures batch <= 0 ==> n == Min(1, available)
  {
    if available == 0 then 0
    else if batch <= 1 then 1
    else Min(batch, available)
  }

  /** The records a batch produced and the rows left in the channel. */
  datatype Batch = Batch(records: seq<seq<string>>, rest: seq<Row>)

  /**
   * One batch: read `TakeCount` rows in channel order and encode each. The
   * Failure is the unsupported value at which the source panics.
   */
  function Produce(columns: seq<string>, channel: seq<Row>, batch: int): (r: Result<Batch, Value>)
    ensures var n := TakeCount(|channel|, batch);
            r.Success? <==> Encodable(columns, channel[..n])
    ensures r.Success? ==> var n := |r.value.records|;
            n == TakeCount(|channel|, batch) && channel == channel[..n] + r.value.rest
            && EncodeRows(columns, channel[..n]) == Success(r.value.records)
    ensures r.Failure? ==> EncodeRows(columns, channel[..TakeCount(|channel|, batch)]) == Failure(r.error)
  {
    var n := TakeCount(|channel|, batch);
    EncodeRowsMeaning(columns, channel[..n]);
    match EncodeRows(columns, channel[..n])
    case Failure(v) => Failure(v)
    case Success(records) => Success(Batch(records, channel[n..]))
  }

  /**
   * The read loop as the source writes it: receive until the channel is
   * closed, encode the row, count it, and stop once the count reaches
   * `batch`.
   */
  method ReadBatch(columns: seq<string>, channel: seq<Row>, batch: int) returns (r: Result<Batch, Value>)
    ensures r == Produce(columns, channel, batch)
  {
    var records: seq<seq<string>> := [];
    var inserted := 0;
    var rest := channel;
    while |rest| > 0
      invariant 0 <= inserted <= |channel|
      invariant rest == channel[inserted..]
      invariant inserted == 0 || inserted < batch
      invariant EncodeRows(columns, channel[..inserted]) == Success(records)
      decreases |rest|
    {
      var row := rest[0];
      rest := rest[1..];
      var fields := EncodeFields(columns, row);
      if fields.Failure? {
        ReadFails(columns, channel, batch, inserted, records);
        return Failure(fields.error);
      }
      ReadStep(columns, channel, inserted, records, fields.value);
      records := records + [fields.value];
      inserted := inserted + 1;
      if inserted >= batch {
        break;
      }
    }
    ReadEnds(columns, channel, batch, inserted, records);
    r := Success(Batch(records, rest));
  }

  /** Reading and encoding one more row appends its record. */
  lemma ReadStep(columns: seq<string>, channel: seq<Row>, inserted: nat, records: seq<seq<string>>,
                 fields: seq<string>)
    requires inserted < |channel| && EncodeRows(columns, channel[..inserted]) == Success(records)
    requires EncodeRow(columns, channel[inserted]) == Success(fields)
    ensures EncodeRows(columns, channel[..inserted + 1]) == Success(records + [fields])
  {
    assert channel[..inserted + 1][..inserted] == channel[..inserted];
  }

  /** A row the loop reads and cannot encode makes the whole batch fail with
      its unsupported value. */
  lemma ReadFails(columns: seq<string>, channel: seq<Row>, batch: int, inserted: nat, records: seq<seq<string>>)
    requires inserted < |channel| && (inserted == 0 || inserted < batch)
    requires EncodeRows(columns, channel[..inserted]) == Success(records)
    requires EncodeRow(columns, channel[inserted]).Failure?
    ensures Produce(columns, channel, batch) == Failure(EncodeRow(columns, channel[inserted]).error)
  {
    var n := TakeCount(|channel|, batch);
    assert inserted < n;
    var read := channel[..n];
    assert read[..inserted + 1][..inserted] == channel[..inserted];
    assert read[..inserted + 1][inserted] == channel[inserted];
    assert EncodeRows(columns, read[..inserted + 1]) == Failure(EncodeRow(columns, channel[inserted]).error);
    EncodeRowsPrefixFails(columns, read, inserted + 1);
  }

  /** The loop stops when the channel is empty or the count reached `batch`,
      having read exactly the batch. */
  lemma ReadEnds(columns: seq<string>, channel: seq<Row>, batch: int, inserted: nat, records: seq<seq<string>>)
    requires inserted <= |channel|
    requires || (inserted == |channel| && (inserted == 0 || inserted < batch))
             || (inserted > 0 && (inserted == batch || (inserted == 1 && batch <= 1)))
    requires EncodeRows(columns, channel[..inserted]) == Success(records)
    ensures Produce(columns, channel, batch) == Success(Batch(records, channel[inserted..]))
  {
    assert TakeCount(|channel|, batch) == inserted;
  }

  function Sum(s: seq<int>): int
  {
    if |s| == 0 then 0 else s[0] + Sum(s[1..])
  }

  /** The sizes of the batches the dumper's loop reads from `rows` rows when
      every batch commits: full batches while a full one was read, then the
      remainder (possibly zero). */
  function BatchSizes(rows: nat, batch: nat): (s: seq<nat>)
    requires batch > 0
    ensures |s| >= 1 && s[|s| - 1] < batch
    ensures forall i :: 0 <= i < |s| - 1 ==> s[i] == batch
    decreases rows
  {
    if rows < batch then [rows] else [batch] + BatchSizes(rows - batch, batch)
  }

  /**
   * `rows / batch + 1` batches: all full except the last, which holds
   * `rows % batch` rows, so an exact multiple ends with an empty batch; the
   * sizes add up to `rows`.
   */
  lemma {:induction false} BatchSizesShape(rows: nat, batch: nat)
    requires batch > 0
    ensures var s := BatchSizes(rows, batch);
            |s| == rows / batch + 1
            && (forall i :: 0 <= i < |s| - 1 ==> s[i] == batch)
            && s[|s| - 1] == rows % batch
            && Sum(s) == rows
    decreases rows
  {
    var s := BatchSizes(rows, batch);
    if rows >= batch {
      var t := BatchSizes(rows - batch, batch);
      BatchSizesShape(rows - batch, batch);
      DivStep(rows, batch);
      assert s[0] == batch && s[1..] == t;
      assert Sum(s) == batch + Sum(t);
    } else {
      DivUnique(rows, batch, 0, rows);
    }
  }

  lemma DivStep(rows: nat, batch: nat)
    requires 0 < batch <= rows
    ensures (rows - batch) / batch == rows / batch - 1
    ensures (rows - batch) % batch == rows % batch
  {
    var q, m := (rows - batch) / batch, (rows - batch) % batch;
    assert rows - batch == batch * q + m;
    assert rows == batch * (q + 1) + m;
    DivUnique(rows, batch, q + 1, m);
  }

  /** Euclidean division has only one quotient and remainder. */
  lemma DivUnique(x: int, b: int, q: int, r: int)
    requires b > 0 && 0 <= r < b && x == b * q + r
    ensures x / b == q && x % b == r
  {
    var q0, r0 := x / b, x % b;
    assert b * (q - q0) == r0 - r;
    if q - q0 >= 1 {
      MulAtLeast(b, q - q0);
    } else if q0 - q >= 1 {
      MulAtLeast(b, q0 - q);
    }
  }

  lemma MulAtLeast(b: int, d: int)
    requires b > 0 && d >= 1
    ensures b * d >= b
  {
  }
}

=== FILE: quoting.dfy ===
/**
 * MySQL identifier quoting as `quoteIdentifier` does it: wrap the name in
 * backticks and double every backtick inside it. The module also defines the
 * reading side (how the server takes a quoted identifier apart), which is the
 * inverse the quoting is meant to have.
 */
module Quoting {
  import opened Base

  const Backtick: char := '`'

  /** Every backtick of `name` replaced by two (`strings.Replace(name, "`", "``", -1)`). */
  function Escape(name: string): (r: string)
    ensures |r| >= |name|
  {
    if |name| == 0 then ""
    else (if name[0] == Backtick then [Backtick, Backtick] else [name[0]]) + Escape(name[1..])
  }

  /** A name without backticks needs no escaping. */
  lemma {:induction false} EscapeNoBacktick(name: string)
    ensures Backtick !in name ==> Escape(name) == name
    decreases |name|
  {
    if |name| > 0 && Backtick !in name {
      assert name == [name[0]] + name[1..];
      EscapeNoBacktick(name[1..]);
    }
  }

  /**
   * Reads the body of a quoted identifier, starting just after its opening
   * backtick: a doubled backtick stands for one backtick, a single backtick
   * closes the identifier. Returns the name and the text after the closing
   * backtick, or None when the identifier is never closed.
   */
  function ReadBody(s: string): (r: Option<(string, string)>)
    ensures r.Some? ==> |r.value.1| < |s|
    decreases |s|
  {
    if |s| == 0 then None
    else if s[0] == Backtick then
      if |s| >= 2 && s[1] == Backtick then
        match ReadBody(s[2..])
        case None => None
        case Some((n, rest)) => Some(([Backtick] + n, rest))
      else Some(("", s[1..]))
    else
      match ReadBody(s[1..])
      case None => None
      case Some((n, rest)) => Some(([s[0]] + n, rest))
  }

  /** The name a complete quoted identifier stands for, if `q` is one. */
  function Unquote(q: string): Option<string>
  {
    if |q| == 0 || q[0] != Backtick then None
    else match ReadBody(q[1..])
      case None => None
      case Some((n, rest)) => if |rest| == 0 then Some(n) else None
  }

  /** Escaping works character by character. */
  lemma EscapeCons(c: char, n: string)
    ensures Escape([c] + n) == (if c == Backtick then [Backtick, Backtick] else [c]) + Escape(n)
  {
    assert ([c] + n)[1..] == n;
  }

  /** Reading an escaped body followed by a closing backtick gives the name
      back, provided what follows cannot be mistaken for a doubled backtick. */
  lemma {:induction false} ReadEscaped(name: string, rest: string)
    requires |rest| == 0 || rest[0] != Backtick
    ensures ReadBody(Escape(name) + [Backtick] + rest) == Some((name, rest))
    decreases |name|
  {
    if |name| == 0 {
      var s := Escape(name) + [Backtick] + rest;
      assert s == [Backtick] + rest;
      assert s[1..] == rest;
    } else {
      ReadEscaped(name[1..], rest);
      ReadEscapedStep(name[0], name[1..], rest);
      assert [name[0]] + name[1..] == name;
    }
  }

  /** One more character in front of an escaped name is read back in front. */
  lemma ReadEscapedStep(c: char, tail: string, rest: string)
    requires ReadBody(Escape(tail) + [Backtick] + rest) == Some((tail, rest))
    ensures ReadBody(Escape([c] + tail) + [Backtick] + rest) == Some(([c] + tail, rest))
  {
    var t := Escape(tail) + [Backtick] + rest;
    var s := Escape([c] + tail) + [Backtick] + rest;
    EscapeCons(c, tail);
    assert s == (if c == Backtick then [Backtick, Backtick] else [c]) + t;
    ReadSoundStep(c, t, tail, rest, s);
  }

  /** A doubled backtick in front of a body reads as one backtick. */
  lemma ReadDoubled(t: string)
    ensures ReadBody([Backtick, Backtick] + t)
         == match ReadBody(t) case None => None case Some((n, rest)) => Some(([Backtick] + n, rest))
  {
    assert ([Backtick, Backtick] + t)[2..] == t;
  }

  /** Any other character in front of a body reads as itself. */
  lemma ReadPlain(c: char, t: string)
    requires c != Backtick
    ensures ReadBody([c] + t)
         == match ReadBody(t) case None => None case Some((n, rest)) => Some(([c] + n, rest))
  {
    assert ([c] + t)[1..] == t;
  }

  /** Whatever ReadBody accepts is exactly an escaped name, its closing
      backtick, and a remainder that does not start with a backtick. */
  lemma {:induction false} ReadBodySound(s: string)
    requires ReadBody(s).Some?
    ensures var (n, rest) := ReadBody(s).value;
            s == Escape(n) + [Backtick] + rest && (|rest| == 0 || rest[0] != Backtick)
    decreases |s|
  {
    if s[0] == Backtick && |s| >= 2 && s[1] == Backtick {
      var t := s[2..];
      ReadBodySound(t);
      var (n, rest) := ReadBody(t).value;
      assert s == [Backtick, Backtick] + t;
      ReadSoundStep(Backtick, t, n, rest, s);
    } else if s[0] == Backtick {
      assert s == [Backtick] + s[1..];
    } else {
      var t := s[1..];
      ReadBodySound(t);
      var (n, rest) := ReadBody(t).value;
      assert s == [s[0]] + t;
      ReadSoundStep(s[0], t, n, rest, s);
    }
  }

  /** Soundness carries over from a body `t` to the same body with one
      more escaped character `c` in front. */
  lemma ReadSoundStep(c: char, t: string, n: string, rest: string, s: string)
    requires ReadBody(t) == Some((n, rest)) && t == Escape(n) + [Backtick] + rest
    requires s == (if c == Backtick then [Backtick, Backtick] else [c]) + t
    ensures ReadBody(s) == Some(([c] + n, rest))
    ensures s == Escape([c] + n) + [Backtick] + rest
  {
    EscapeCons(c, n);
    var e := if c == Backtick then [Backtick, Backtick] else [c];
    assert s == e + Escape(n) + [Backtick] + rest;
    if c == Backtick {
      ReadDoubled(t);
    } else {
      ReadPlain(c, t);
    }
  }

  /**
   * `quoteIdentifier`: a backtick, the name with its backticks doubled, a
   * backtick. Quoting is lossless: the quoted text reads back as the name.
   */
  function QuoteIdentifier(name: string): (r: string)
    ensures |r| >= |name| + 2 && r[0] == Backtick && r[|r| - 1] == Backtick
    ensures Backtick !in name ==> r == [Backtick] + name + [Backtick]
    ensures Unquote(r) == Some(name)
  {
    ReadEscaped(name, "");
    assert ([Backtick] + Escape(name) + [Backtick])[1..] == Escape(name) + [Backtick] + "";
    EscapeNoBacktick(name);
    [Backtick] + Escape(name) + [Backtick]
  }

  /** Quoting and unquoting are inverse: `q` is the quoting of `name`
      exactly when `q` reads back as `name`. */
  lemma UnquoteIsInverse(q: string, name: string)
    ensures Unquote(q) == Some(name) <==> q == QuoteIdentifier(name)
  {
    if Unquote(q) == Some(name) {
      ReadBodySound(q[1..]);
      assert q == [Backtick] + q[1..];
    }
  }

  /** Distinct names never quote to the same text. */
  lemma QuoteInjective(a: string, b: string)
    requires QuoteIdentifier(a) == QuoteIdentifier(b)
    ensures a == b
  {
  }
}

=== FILE: session.dfy ===
/**
 * The dumper's session state around the table loop: the one-shot check that
 * the server accepts `LOAD DATA LOCAL INFILE`, and `Close`, which undoes the
 * server setting if this dumper changed it and closes the connection.
 *
 * The server-wide `local_infile` setting is modelled as a field of `Server`;
 * each database call the guard or `Close` makes has a scripted outcome.
 */
module Session {
  import opened Base

  /** `myDumper` without its connection and reader: whether the once-guard has
      run, whether `Close` must reset the setting, and the batch size. */
  datatype Dumper = Dumper(inlineChecked: bool, disableGlobalInline: bool, batch: int)

  /** `NewDumper`: the guard has not run and nothing needs undoing. */
  function NewDumper(batch: int): (d: Dumper)
    ensures !d.inlineChecked && !d.disableGlobalInline && d.batch == batch
  {
    Dumper(false, false, batch)
  }

  /** The server-wide setting the dumper reads and changes. */
  datatype Server = Server(localInfile: bool)

  const SelectLocalInfile := "SELECT @@GLOBAL.local_infile"
  const EnableLocalInfile := "SET GLOBAL local_infile=1"
  const ResetLocalInfile := "SET GLOBAL local_infile=0"

  /** Outcomes of the guard's two calls: reading the setting, and setting it. */
  datatype Probe = Probe(read: DbStatus, enable: DbStatus)

  /** The guard's effect: new dumper and server state, the statements it
      issued, and the error `DumpTable` returns (unwrapped). */
  datatype Guarded = Guarded(dumper: Dumper, server: Server, issued: seq<string>, err: Option<Fault>)

  /**
   * The `setGlobalInline.Do` block at the top of `DumpTable`. Only its first
   * run does anything: it reads the setting and, when the setting is off,
   * turns it on and records that `Close` must turn it off again. A failure is
   * returned by that first call only; the guard is spent either way, so later
   * calls neither retry nor fail.
   */
  function EnsureLocalInfile(d: Dumper, s: Server, p: Probe): (r: Guarded)
    ensures r.dumper.inlineChecked && r.dumper.batch == d.batch
    ensures d.inlineChecked ==> r == Guarded(d, s, [], None)
    ensures !d.inlineChecked ==> |r.issued| >= 1 && r.issued[0] == SelectLocalInfile
    ensures !d.inlineChecked ==>
              r.issued == [SelectLocalInfile] + (if p.read.Ok? && !s.localInfile then [EnableLocalInfile] else [])
    ensures EnableLocalInfile in r.issued <==> !d.inlineChecked && p.read.Ok? && !s.localInfile
    ensures r.dumper.disableGlobalInline
        <==> d.disableGlobalInline || (!d.inlineChecked && p.read.Ok? && !s.localInfile && p.enable.Ok?)
    ensures r.err.Some? <==> !d.inlineChecked && (p.read.Err? || (!s.localInfile && p.enable.Err?))
    ensures r.server.localInfile
        <==> s.localInfile || (!d.inlineChecked && p.read.Ok? && p.enable.Ok?)
    ensures !d.inlineChecked && r.err.None? ==> r.server.localInfile
    ensures !d.inlineChecked && p.read.Err? ==> r.err == Some(p.read.fault)
    ensures !d.inlineChecked && p.read.Ok? && !s.localInfile && p.enable.Err? ==> r.err == Some(p.enable.fault)
  {
    if d.inlineChecked then Guarded(d, s, [], None)
    else
      var checked := d.(inlineChecked := true);
      if p.read.Err? then Guarded(checked, s, [SelectLocalInfile], Some(p.read.fault))
      else if s.localInfile then Guarded(checked, s, [SelectLocalInfile], None)
      else if p.enable.Err? then
        Guarded(checked, s, [SelectLocalInfile, EnableLocalInfile], Some(p.enable.fault))
      else
        Guarded(checked.(disableGlobalInline := true), Server(true),
                [SelectLocalInfile, EnableLocalInfile], None)
  }

  /** The guard's body runs at most once per dumper: a second call, whatever
      the server would answer, issues nothing and changes nothing. */
  lemma GuardRunsOnce(d: Dumper, s: Server, first: Probe, second: Probe)
    ensures var r := EnsureLocalInfile(d, s, first);
            EnsureLocalInfile(r.dumper, r.server, second) == Guarded(r.dumper, r.server, [], None)
  {
  }

  /** The errors `Close` returns. When both the reset and the close fail, the
      error wraps the reset's cause and the close's cause is dropped. */
  datatype CloseError =
    | CloseFailed(cause: Fault)          // "failed to close mysql connection"
    | CloseAndResetFailed(cause: Fault)  // "failed to close mysql connection and `SET GLOBAL local_infile=0`"
    | ResetFailed(cause: Fault)          // "failed `SET GLOBAL local_infile=0` please do this manually!"

  datatype Closed = Closed(server: Server, issued: seq<string>, err: Option<CloseError>)

  /**
   * `Close`: reset the setting if this dumper turned it on, then close the
   * connection (which always happens), and report the reset's error, or
   * else the close error.
   */
  function Close(d: Dumper, s: Server, reset: DbStatus, close: DbStatus): (r: Closed)
    ensures ResetLocalInfile in r.issued <==> d.disableGlobalInline
    ensures r.issued == (if d.disableGlobalInline then [ResetLocalInfile] else [])
    ensures r.err.None? <==> close.Ok? && (!d.disableGlobalInline || reset.Ok?)
    ensures close.Err? && d.disableGlobalInline && reset.Err? ==> r.err == Some(CloseAndResetFailed(reset.fault))
    ensures close.Err? && !(d.disableGlobalInline && reset.Err?) ==> r.err == Some(CloseFailed(close.fault))
    ensures close.Ok? && d.disableGlobalInline && reset.Err? ==> r.err == Some(ResetFailed(reset.fault))
    ensures r.server.localInfile <==> s.localInfile && !(d.disableGlobalInline && reset.Ok?)
  {
    var resetErr := if d.disableGlobalInline then reset else Ok;
    var server := if d.disableGlobalInline && reset.Ok? then Server(false) else s;
    var issued := if d.disableGlobalInline then [ResetLocalInfile] else [];
    if close.Err? then
      if resetErr.Err? then Closed(server, issued, Some(CloseAndResetFailed(resetErr.fault)))
      else Closed(server, issued, Some(CloseFailed(close.fault)))
    else if resetErr.Err? then Closed(server, issued, Some(ResetFailed(resetErr.fault)))
    else Closed(server, issued, None)
  }

  /**
   * Over a dumper's life (creation, the guard on each of any number of
   * tables, `Close`), the server's setting ends where it started whenever the
   * reset succeeds; and `Close` resets exactly when the guard turned the
   * setting on.
   */
  lemma {:induction false} SettingRestored(batch: int, s: Server, probes: seq<Probe>, reset: DbStatus, close: DbStatus)
    ensures var g := GuardAll(NewDumper(batch), s, probes);
            && (ResetLocalInfile in Close(g.dumper, g.server, reset, close).issued
                <==> |probes| > 0 && probes[0].read.Ok? && probes[0].enable.Ok? && !s.localInfile)
            && (reset.Ok? ==> Close(g.dumper, g.server, reset, close).server == s)
  {
    var d := NewDumper(batch);
    if |probes| > 0 {
      var r := EnsureLocalInfile(d, s, probes[0]);
      GuardAllSpent(r.dumper, r.server, probes[1..]);
    }
  }

  /** The guard run for a sequence of tables, one probe each. */
  function GuardAll(d: Dumper, s: Server, probes: seq<Probe>): Guarded
    decreases |probes|
  {
    if |probes| == 0 then Guarded(d, s, [], None)
    else
      var r := EnsureLocalInfile(d, s, probes[0]);
      var rest := GuardAll(r.dumper, r.server, probes[1..]);
      Guarded(rest.dumper, rest.server, r.issued + rest.issued, rest.err)
  }

  /** Once the guard is spent, further tables leave dumper and server alone. */
  lemma {:induction false} GuardAllSpent(d: Dumper, s: Server, probes: seq<Probe>)
    requires d.inlineChecked
    ensures GuardAll(d, s, probes) == Guarded(d, s, [], None)
    decreases |probes|
  {
    if |probes| > 0 {
      GuardAllSpent(d, s, probes[1..]);
    }
  }

  /** If the guard turned the setting on and the reset fails, the server is
      left accepting local files and `Close` reports the reset's failure. */
  lemma ResetFailureLeavesSettingOn(batch: int, s: Server, p: Probe, reset: DbStatus, close: DbStatus)
    requires !s.localInfile && p.read.Ok? && p.enable.Ok? && reset.Err?
    ensures var g := EnsureLocalInfile(NewDumper(batch), s, p);
            var c := Close(g.dumper, g.server, reset, close);
            c.server.localInfile && c.err.Some? && c.err.value.cause == reset.fault
  {
  }
}

=== FILE: statements.dfy ===
/**
 * The SQL text the dumper sends: the `LOAD DATA` query of the streaming
 * strategy, the multi-row `replace into` statement of the buffered strategy,
 * and the statements of the per-transaction preamble. Each builder comes
 * with the reading that recovers what it was built from.
 */
module Statements {
  import opened Base
  import opened Quoting

  const DisableForeignKeyChecks := "SET foreign_key_checks = 0;"

  /** The quoted column names, in order. */
  function QuoteAll(columns: seq<string>): (r: seq<string>)
    ensures |r| == |columns|
    ensures forall i :: 0 <= i < |columns| ==> Unquote(r[i]) == Some(columns[i])
  {
    seq(|columns|, i requires 0 <= i < |columns| => QuoteIdentifier(columns[i]))
  }

  /** `strings.Join(columnsQuoted, ",")`. */
  function ColumnList(columns: seq<string>): string
  {
    Join(QuoteAll(columns), ",")
  }

  /** Reads one or more comma-separated quoted identifiers covering all of `s`. */
  function ParseIdentifiers(s: string): Option<seq<string>>
    decreases |s|
  {
    if |s| == 0 || s[0] != Backtick then None
    else match ReadBody(s[1..])
      case None => None
      case Some((name, rest)) =>
        if |rest| == 0 then Some([name])
        else if rest[0] != ',' then None
        else match ParseIdentifiers(rest[1..])
          case None => None
          case Some(names) => Some([name] + names)
  }

  /** Reads a column list; the empty text is the empty list. */
  function ParseColumnList(s: string): Option<seq<string>>
  {
    if |s| == 0 then Some([]) else ParseIdentifiers(s)
  }

  /** Joining the quoted names with commas loses nothing, even for names
      that contain commas or backticks. */
  lemma {:induction false} ColumnListRoundTrip(columns: seq<string>)
    ensures ParseColumnList(ColumnList(columns)) == Some(columns)
    decreases |columns|
  {
    if |columns| == 1 {
      assert ColumnList(columns) == QuoteIdentifier(columns[0]);
      ParseOneIdentifier(columns[0]);
      assert [columns[0]] == columns;
    } else if |columns| > 1 {
      ColumnListRoundTrip(columns[1..]);
      ColumnListCons(columns);
      ParseIdentifierCons(columns[0], ColumnList(columns[1..]));
      assert [columns[0]] + columns[1..] == columns;
    }
  }

  /** A list of two or more columns is the first quoted name, a comma, and
      the list of the others. */
  lemma ColumnListCons(columns: seq<string>)
    requires |columns| >= 2
    ensures ColumnList(columns) == QuoteIdentifier(columns[0]) + "," + ColumnList(columns[1..])
    ensures ColumnList(columns[1..]) != ""
  {
    assert QuoteAll(columns)[1..] == QuoteAll(columns[1..]);
  }

  /** A lone quoted identifier reads back as its name. */
  lemma ParseOneIdentifier(name: string)
    ensures ParseIdentifiers(QuoteIdentifier(name)) == Some([name])
  {
    var q := QuoteIdentifier(name);
    ReadEscaped(name, "");
    assert q[1..] == Escape(name) + [Backtick] + "";
  }

  /** A quoted identifier, a comma and a non-empty list read as that name
      in front of the list's names. */
  lemma ParseIdentifierCons(name: string, tail: string)
    requires tail != ""
    ensures ParseIdentifiers(QuoteIdentifier(name) + "," + tail)
         == match ParseIdentifiers(tail) case None => None case Some(ns) => Some([name] + ns)
  {
    var s := QuoteIdentifier(name) + "," + tail;
    ReadEscaped(name, "," + tail);
    assert s[1..] == Escape(name) + [Backtick] + ("," + tail);
    assert ("," + tail)[1..] == tail;
  }

  /** The virtual file name starts here and runs on with the raw table name. */
  const LoadDataStart := "LOAD DATA CONCURRENT LOCAL INFILE 'Reader::"

  /** The text between the virtual file name and the target table. */
  const IntoTable := "' INTO TABLE "

  /** The CSV format clauses between the target table and the column list. */
  const FieldsFormat := " FIELDS TERMINATED BY ',' ENCLOSED BY '\"' ESCAPED BY '\"' "

  /**
   * The streaming strategy's query. The virtual file `Reader::<table>` embeds
   * the table name raw; after `INTO TABLE` comes the target table, quoted
   * (so it reads back to the table, see `QuoteIdentifier`), then the format
   * clauses, and the parenthesised tail lists the quoted columns in order.
   */
  function LoadDataQuery(table: string, columns: seq<string>): (q: string)
    ensures |q| > |LoadDataStart| + |table| && q[..|LoadDataStart| + |table|] == LoadDataStart + table
    ensures var i := |LoadDataStart| + |table| + |IntoTable|;
            var j := i + |QuoteIdentifier(table)|;
            var h := j + |FieldsFormat|;
            && h + 2 <= |q|
            && q[i..j] == QuoteIdentifier(table)
            && q[h] == '(' && q[|q| - 1] == ')'
            && ParseColumnList(q[h + 1..|q| - 1]) == Some(columns)
  {
    ColumnListRoundTrip(columns);
    QueryShape(LoadDataStart + table, IntoTable, QuoteIdentifier(table), FieldsFormat, ColumnList(columns));
    LoadDataStart + table + (IntoTable + QuoteIdentifier(table) + FieldsFormat) + "(" + ColumnList(columns) + ")"
  }

  /** The shape of `a + (into + t + f) + "(" + list + ")"`: each piece sits at
      the position the lengths before it give. */
  lemma QueryShape(a: string, into: string, t: string, f: string, list: string)
    ensures var q := a + (into + t + f) + "(" + list + ")";
            var i := |a| + |into|;
            var j := i + |t|;
            var h := j + |f|;
            && |q| == h + |list| + 2 && q[..|a|] == a
            && q[|a|..i] == into && q[i..j] == t && q[j..h] == f
            && q[h] == '(' && q[|q| - 1] == ')' && q[h + 1..|q| - 1] == list
  {
    var q := a + (into + t + f) + "(" + list + ")";
    assert q == a + into + t + f + "(" + list + ")";
  }

  /** Around the quoted target stand `INTO TABLE` and the CSV format clauses
      (fields separated by `,`, enclosed and escaped by `"`). */
  lemma LoadDataQueryClauses(table: string, columns: seq<string>)
    ensures var q := LoadDataQuery(table, columns);
            var i := |LoadDataStart| + |table| + |IntoTable|;
            var j := i + |QuoteIdentifier(table)|;
            && j + |FieldsFormat| <= |q|
            && q[i - |IntoTable|..i] == IntoTable
            && q[j..j + |FieldsFormat|] == FieldsFormat
  {
    var q := LoadDataQuery(table, columns);
    var a, t, list := LoadDataStart + table, QuoteIdentifier(table), ColumnList(columns);
    QueryShape(a, IntoTable, t, FieldsFormat, list);
    assert q == a + (IntoTable + t + FieldsFormat) + "(" + list + ")";
  }

  /** For one table, different column lists give different queries. */
  lemma LoadDataQueryInjective(table: string, a: seq<string>, b: seq<string>)
    requires LoadDataQuery(table, a) == LoadDataQuery(table, b)
    ensures a == b
  {
  }

  /** One row of the buffered statement: `"(" + strings.Join(rowValues, ",") + ")"`. */
  function Tuple(values: seq<string>): string
  {
    "(" + Join(values, ",") + ")"
  }

  function Tuples(records: seq<seq<string>>): (r: seq<string>)
    ensures |r| == |records|
  {
    seq(|records|, i requires 0 <= i < |records| => Tuple(records[i]))
  }

  const ReplaceStart := "replace into "

  /** The text before the first tuple. */
  function ReplaceHead(table: string): string
  {
    ReplaceStart + table + " values "
  }

  /** The buffered strategy's statement: the head, then one tuple per record
      with a comma between neighbouring tuples. Neither the table name nor
      the values are quoted or escaped. */
  function ReplaceStatement(table: string, records: seq<seq<string>>): string
  {
    ReplaceHead(table) + Join(Tuples(records), ",")
  }

  /** Because nothing is escaped, different records of the same width, as
      every record of one table has, can give the same statement: the fields
      `a,b` and `c` read the same as `a` and `b,c`. */
  lemma ReplaceIsAmbiguous()
    ensures [["a,b", "c"]] != [["a", "b,c"]]
    ensures ReplaceStatement("t", [["a,b", "c"]]) == ReplaceStatement("t", [["a", "b,c"]])
    ensures ReplaceStatement("t", [["a,b", "c"]]) == "replace into t values (a,b,c)"
  {
    assert [["a,b", "c"]][0][0] != [["a", "b,c"]][0][0];
  }

  /** Splits `s` at every `sep`; there is always at least one piece. */
  function SplitOn(s: string, sep: char): (r: seq<string>)
    ensures |r| >= 1
    decreases |s|
  {
    if |s| == 0 then [""]
    else if s[0] == sep then [""] + SplitOn(s[1..], sep)
    else
      var t := SplitOn(s[1..], sep);
      [[s[0]] + t[0]] + t[1..]
  }

  lemma {:induction false} SplitPrefix(x: string, rest: string, sep: char)
    requires sep !in x
    ensures SplitOn(x + rest, sep) == [x + SplitOn(rest, sep)[0]] + SplitOn(rest, sep)[1..]
    decreases |x|
  {
    if |x| > 0 {
      assert (x + rest)[1..] == x[1..] + rest;
      SplitPrefix(x[1..], rest, sep);
      assert [x[0]] + (x[1..] + SplitOn(rest, sep)[0]) == x + SplitOn(rest, sep)[0];
    } else {
      var t := SplitOn(rest, sep);
      assert x + rest == rest;
      assert x + t[0] == t[0];
      assert [t[0]] + t[1..] == t;
    }
  }

  /** Splitting a join gives the parts back when no part holds the separator. */
  lemma {:induction false} SplitJoin(parts: seq<string>, sep: char)
    requires |parts| >= 1
    requires forall i :: 0 <= i < |parts| ==> sep !in parts[i]
    ensures SplitOn(Join(parts, [sep]), sep) == parts
    decreases |parts|
  {
    if |parts| == 1 {
      assert parts[0] + "" == parts[0];
      assert Join(parts, [sep]) == parts[0];
      SplitPrefix(parts[0], "", sep);
      assert SplitOn("", sep) == [""];
    } else {
      var tail := Join(parts[1..], [sep]);
      assert Join(parts, [sep]) == parts[0] + ([sep] + tail);
      SplitJoin(parts[1..], sep);
      assert ([sep] + tail)[1..] == tail;
      assert SplitOn([sep] + tail, sep) == [""] + parts[1..];
      SplitPrefix(parts[0], [sep] + tail, sep);
      assert parts[0] + "" == parts[0];
      assert [parts[0]] + parts[1..] == parts;
    }
  }

  /** The position of the first `c` in `s`, if any. */
  function IndexOf(s: string, c: char): (r: Option<nat>)
    ensures r.Some? ==> r.value < |s| && s[r.value] == c && c !in s[..r.value]
    ensures r.None? ==> c !in s
    decreases |s|
  {
    if |s| == 0 then None
    else if s[0] == c then Some(0)
    else match IndexOf(s[1..], c)
      case None => None
      case Some(k) => assert s[..k + 1] == [s[0]] + s[1..][..k]; Some(k + 1)
  }

  lemma {:induction false} IndexOfFirst(x: string, rest: string, c: char)
    requires c !in x
    ensures IndexOf(x + [c] + rest, c) == Some(|x|)
    decreases |x|
  {
    if |x| > 0 {
      assert (x + [c] + rest)[1..] == x[1..] + [c] + rest;
      IndexOfFirst(x[1..], rest, c);
    }
  }

  /** Reads comma-separated tuples covering all of `s`: each runs from `(` to
      the first `)` and its fields are split at commas. */
  function ParseTuples(s: string): Option<seq<seq<string>>>
    decreases |s|
  {
    if |s| == 0 || s[0] != '(' then None
    else match IndexOf(s[1..], ')')
      case None => None
      case Some(k) =>
        var fields := SplitOn(s[1..][..k], ',');
        var after := s[1..][k + 1..];
        if |after| == 0 then Some([fields])
        else if after[0] != ',' then None
        else match ParseTuples(after[1..])
          case None => None
          case Some(more) => Some([fields] + more)
  }

  /** Reads the records back from a replace statement for `table`. */
  function ParseReplace(table: string, stmt: string): Option<seq<seq<string>>>
  {
    var head := ReplaceHead(table);
    if |stmt| < |head| || stmt[..|head|] != head then None
    else if |stmt| == |head| then Some([])
    else ParseTuples(stmt[|head|..])
  }

  /** A field that the statement's reading cannot confuse with punctuation. */
  predicate SafeField(f: string)
  {
    ',' !in f && ')' !in f
  }

  /** Records whose every field is safe and that have at least one field each. */
  predicate SafeRecords(records: seq<seq<string>>)
  {
    forall i :: 0 <= i < |records| ==>
      |records[i]| >= 1 && forall j :: 0 <= j < |records[i]| ==> SafeField(records[i][j])
  }

  lemma JoinSafe(fields: seq<string>)
    requires forall j :: 0 <= j < |fields| ==> SafeField(fields[j])
    ensures ')' !in Join(fields, ",")
  {
    if |fields| > 1 {
      JoinSafe(fields[1..]);
    }
  }

  /** Reading the first tuple: its fields are the pieces of its body. */
  lemma ParseFirstTuple(body: string, after: string)
    requires ')' !in body
    ensures ParseTuples("(" + body + ")" + after)
         == if |after| == 0 then Some([SplitOn(body, ',')])
            else if after[0] != ',' then None
            else match ParseTuples(after[1..])
              case None => None
              case Some(more) => Some([SplitOn(body, ',')] + more)
  {
    var s := "(" + body + ")" + after;
    assert s[1..] == body + [')'] + after;
    IndexOfFirst(body, after, ')');
    assert s[1..][..|body|] == body;
    assert s[1..][|body| + 1..] == after;
  }

  lemma {:induction false} TuplesRoundTrip(records: seq<seq<string>>)
    requires |records| >= 1 && SafeRecords(records)
    ensures ParseTuples(Join(Tuples(records), ",")) == Some(records)
    decreases |records|
  {
    var first := records[0];
    var body := Join(first, ",");
    FirstTupleSafe(records);
    if |records| == 1 {
      ParseFirstTuple(body, "");
      assert Join(Tuples(records), ",") == Tuples(records)[0] == Tuple(first);
      assert "(" + body + ")" + "" == Tuple(first);
      assert [first] == records;
    } else {
      SafeRecordsTail(records);
      TuplesRoundTrip(records[1..]);
      var more := Join(Tuples(records[1..]), ",");
      TuplesCons(records);
      ParseFirstTuple(body, "," + more);
      assert ("," + more)[1..] == more;
      assert [first] + records[1..] == records;
    }
  }

  /** The first record's tuple body holds no `)` and splits back into its fields. */
  lemma FirstTupleSafe(records: seq<seq<string>>)
    requires |records| >= 1 && SafeRecords(records)
    ensures ')' !in Join(records[0], ",") && SplitOn(Join(records[0], ","), ',') == records[0]
  {
    var first := records[0];
    assert |first| >= 1 && forall j :: 0 <= j < |first| ==> SafeField(first[j]);
    JoinSafe(first);
    SplitJoin(first, ',');
  }

  lemma SafeRecordsTail(records: seq<seq<string>>)
    requires |records| >= 1 && SafeRecords(records)
    ensures SafeRecords(records[1..])
  {
    var rest := records[1..];
    forall i | 0 <= i < |rest|
      ensures |rest[i]| >= 1 && forall j :: 0 <= j < |rest[i]| ==> SafeField(rest[i][j])
    {
      assert rest[i] == records[i + 1];
    }
  }

  /** Two or more tuples joined: the first tuple, a comma, and the others joined. */
  lemma TuplesCons(records: seq<seq<string>>)
    requires |records| >= 2
    ensures Join(Tuples(records), ",")
         == "(" + Join(records[0], ",") + ")" + ("," + Join(Tuples(records[1..]), ","))
  {
    assert Tuples(records)[1..] == Tuples(records[1..]);
  }

  /** With safe fields the replace statement determines its records. */
  lemma ReplaceRoundTrip(table: string, records: seq<seq<string>>)
    requires SafeRecords(records)
    ensures ParseReplace(table, ReplaceStatement(table, records)) == Some(records)
  {
    var stmt := ReplaceStatement(table, records);
    var head := ReplaceHead(table);
    assert stmt[..|head|] == head;
    if |records| > 0 {
      TuplesRoundTrip(records);
      assert stmt[|head|..] == Join(Tuples(records), ",");
      assert |Tuples(records)[0]| >= 2;
      if |records| > 1 {
        assert |Join(Tuples(records), ",")| >= |Tuples(records)[0]|;
      }
    }
  }
}

=== FILE: strategies.dfy ===
/**
 * The two insertion strategies, each run inside one transaction on one batch
 * of rows: `insertIntoTable` streams the records to a `LOAD DATA` query, and
 * `insertIntoTableReplace` builds one `replace into` statement. Both read
 * and encode the batch the same way.
 *
 * The streaming strategy's producer goroutine, pipe and reader-handler
 * registry are replaced by reading the batch in sequence: the records are
 * what the producer writes to the pipe, and the count is the number of rows
 * it consumed.
 */
module Strategies {
  import opened Base
  import opened Values
  import opened Statements
  import opened Batches

  datatype Strategy = LoadData | Replace

  /** What a strategy did when it returned without error: the statements it
      executed in the transaction, the records it sent, and the rows left in
      the channel. The count it returns is the number of records. */
  datatype Inserted = Inserted(statements: seq<string>, records: seq<seq<string>>, rest: seq<Row>)

  /** A strategy's outcome: it wrote, it returned an error, or the forced
      cast of an unsupported value panicked. */
  datatype Insert = Wrote(inserted: Inserted) | Failed(err: Error) | Crashed(value: Value)

  /** The batch a successful insert consumed: `TakeCount` rows, in channel
      order, encoded into its records. */
  ghost predicate ConsumedBatch(columns: seq<string>, channel: seq<Row>, batch: int, ins: Inserted)
  {
    var n := |ins.records|;
    && n == TakeCount(|channel|, batch)
    && channel == channel[..n] + ins.rest
    && EncodeRows(columns, channel[..n]) == Success(ins.records)
  }

  /**
   * `insertIntoTable`: look up the columns, disable foreign-key checks, then
   * run the `LOAD DATA` query over the batch's records.
   */
  function InsertIntoTable(table: string, columns: seq<string>, channel: seq<Row>, batch: int, plan: TxnPlan)
    : (r: Insert)
    ensures r.Wrote? <==> plan.getColumns.Ok? && plan.foreignKeys.Ok? && plan.exec.Ok?
                          && Encodable(columns, channel[..TakeCount(|channel|, batch)])
    ensures r.Wrote? ==> ConsumedBatch(columns, channel, batch, r.inserted)
    ensures r.Wrote? ==> r.inserted.statements == [DisableForeignKeyChecks, LoadDataQuery(table, columns)]
    ensures r.Crashed? ==> r.value.Other?
    ensures plan.getColumns.Err? ==> r == Failed(GetColumns(plan.getColumns.fault))
    ensures plan.getColumns.Ok? && plan.foreignKeys.Err? ==> r == Failed(DisableForeignKeys(plan.foreignKeys.fault))
    ensures var n := TakeCount(|channel|, batch);
            && (plan.getColumns.Ok? && plan.foreignKeys.Ok? ==> (r.Crashed? <==> !Encodable(columns, channel[..n])))
            && (r.Crashed? ==> EncodeRows(columns, channel[..n]) == Failure(r.value))
            && ((plan.getColumns.Ok? && plan.foreignKeys.Ok? && plan.exec.Err? && Encodable(columns, channel[..n]))
                ==> r == Failed(ExecuteQuery(plan.exec.fault)))
  {
    if plan.getColumns.Err? then Failed(GetColumns(plan.getColumns.fault))
    else if plan.foreignKeys.Err? then Failed(DisableForeignKeys(plan.foreignKeys.fault))
    else match Produce(columns, channel, batch)
      case Failure(v) =>
        var n := TakeCount(|channel|, batch);
        EncodeRowsMeaning(columns, channel[..n]);
        assert exists i :: 0 <= i < n && EncodeRow(columns, channel[..n][i]) == Failure(v);
        Crashed(v)
      case Success(b) =>
        if plan.exec.Err? then Failed(ExecuteQuery(plan.exec.fault))
        else Wrote(Inserted([DisableForeignKeyChecks, LoadDataQuery(table, columns)], b.records, b.rest))
  }

  /**
   * `insertIntoTableReplace`: look up the columns, read and encode the batch,
   * and return 0 without executing anything when it is empty; otherwise
   * disable foreign-key checks and execute the replace statement.
   */
  function InsertIntoTableReplace(table: string, columns: seq<string>, channel: seq<Row>, batch: int, plan: TxnPlan)
    : (r: Insert)
    ensures r.Wrote? <==> plan.getColumns.Ok? && Encodable(columns, channel[..TakeCount(|channel|, batch)])
                          && (|channel| == 0 || (plan.foreignKeys.Ok? && plan.exec.Ok?))
    ensures r.Wrote? ==> ConsumedBatch(columns, channel, batch, r.inserted)
    ensures r.Wrote? ==> (r.inserted.statements == [] <==> |channel| == 0)
    ensures r.Wrote? && |channel| > 0 ==>
              r.inserted.statements == [DisableForeignKeyChecks, ReplaceStatement(table, r.inserted.records)]
    ensures r.Crashed? ==> r.value.Other?
    ensures plan.getColumns.Err? ==> r == Failed(GetColumns(plan.getColumns.fault))
    ensures var n := TakeCount(|channel|, batch);
            && (plan.getColumns.Ok? ==> (r.Crashed? <==> !Encodable(columns, channel[..n])))
            && (r.Crashed? ==> EncodeRows(columns, channel[..n]) == Failure(r.value))
            && ((plan.getColumns.Ok? && plan.foreignKeys.Err? && Encodable(columns, channel[..n]) && |channel| > 0)
                ==> r == Failed(DisableForeignKeys(plan.foreignKeys.fault)))
            && ((plan.getColumns.Ok? && plan.foreignKeys.Ok? && plan.exec.Err? && Encodable(columns, channel[..n])
                 && |channel| > 0)
                ==> r == Failed(ExecuteQuery(plan.exec.fault)))
  {
    if plan.getColumns.Err? then Failed(GetColumns(plan.getColumns.fault))
    else match Produce(columns, channel, batch)
      case Failure(v) =>
        var n := TakeCount(|channel|, batch);
        EncodeRowsMeaning(columns, channel[..n]);
        assert exists i :: 0 <= i < n && EncodeRow(columns, channel[..n][i]) == Failure(v);
        Crashed(v)
      case Success(b) =>
        if |b.records| == 0 then Wrote(Inserted([], [], b.rest))
        else if plan.foreignKeys.Err? then Failed(DisableForeignKeys(plan.foreignKeys.fault))
        else if plan.exec.Err? then Failed(ExecuteQuery(plan.exec.fault))
        else Wrote(Inserted([DisableForeignKeyChecks, ReplaceStatement(table, b.records)], b.records, b.rest))
  }

  /** The strategy `trunkInsert` is given. */
  function RunStrategy(strategy: Strategy, table: string, columns: seq<string>, channel: seq<Row>, batch: int, plan: TxnPlan)
    : (r: Insert)
    ensures plan.getColumns.Err? ==> r == Failed(GetColumns(plan.getColumns.fault))
    ensures r.Crashed? ==> r.value.Other?
                           && EncodeRows(columns, channel[..TakeCount(|channel|, batch)]) == Failure(r.value)
  {
    match strategy
    case LoadData => InsertIntoTable(table, columns, channel, batch, plan)
    case Replace => InsertIntoTableReplace(table, columns, channel, batch, plan)
  }

  /** When every call succeeds, the two strategies consume the same rows and
      send the same records; they differ only in the statements. */
  lemma StrategiesAgree(table: string, columns: seq<string>, channel: seq<Row>, batch: int)
    ensures var a := InsertIntoTable(table, columns, channel, batch, AllOk);
            var b := InsertIntoTableReplace(table, columns, channel, batch, AllOk);
            && a.Wrote? == b.Wrote?
            && (a.Wrote? ==> a.inserted.records == b.inserted.records && a.inserted.rest == b.inserted.rest)
            && (a.Crashed? ==> b == a)
  {
  }

  /** Appending a record appends `,` (unless it is the first) and its tuple. */
  lemma ReplaceStatementSnoc(table: string, records: seq<seq<string>>, fields: seq<string>)
    ensures ReplaceStatement(table, records + [fields])
         == ReplaceStatement(table, records) + (if |records| != 0 then "," else "") + Tuple(fields)
  {
    var head, parts, last := ReplaceHead(table), Tuples(records), Tuple(fields);
    TuplesSnoc(records, fields);
    JoinSnoc(parts, last, ",");
    var before, after := Join(parts, ","), Join(parts + [last], ",");
    assert ReplaceStatement(table, records) == head + before;
    assert ReplaceStatement(table, records + [fields]) == head + after;
    if |records| == 0 {
      assert before == "" && after == last;
    } else {
      assert after == before + "," + last;
      AppendAssoc(head, before, ",", last);
    }
  }

  lemma AppendAssoc(a: string, b: string, c: string, d: string)
    ensures a + (b + c + d) == a + b + c + d
  {
  }

  lemma TuplesSnoc(records: seq<seq<string>>, fields: seq<string>)
    ensures Tuples(records + [fields]) == Tuples(records) + [Tuple(fields)]
  {
  }

  /**
   * The read loop of the buffered strategy as the source writes it: read a
   * row, encode it, append `,` unless it is the first tuple, append the
   * tuple, and stop once the count reaches `batch`.
   */
  method ReplaceLoop(table: string, columns: seq<string>, channel: seq<Row>, batch: int)
    returns (buf: string, r: Result<Batch, Value>)
    ensures r == Produce(columns, channel, batch)
    ensures r.Success? ==> buf == ReplaceStatement(table, r.value.records)
  {
    buf := ReplaceStart + table + " values ";
    var records: seq<seq<string>> := [];
    var inserted := 0;
    var rest := channel;
    while |rest| > 0
      invariant 0 <= inserted <= |channel|
      invariant rest == channel[inserted..]
      invariant inserted == 0 || inserted < batch
      invariant EncodeRows(columns, channel[..inserted]) == Success(records)
      invariant buf == ReplaceStatement(table, records)
      decreases |rest|
    {
      var row := rest[0];
      rest := rest[1..];
      var fields := EncodeFields(columns, row);
      if fields.Failure? {
        ReadFails(columns, channel, batch, inserted, records);
        return buf, Failure(fields.error);
      }
      ReadStep(columns, channel, inserted, records, fields.value);
      ReplaceStatementSnoc(table, records, fields.value);
      assert ReplaceStatement(table, records + [fields.value])
          == buf + (if |records| != 0 then "," else "") + Tuple(fields.value);
      if inserted != 0 {
        buf := buf + ",";
      }
      buf := buf + Tuple(fields.value);
      records := records + [fields.value];
      inserted := inserted + 1;
      if inserted >= batch {
        break;
      }
    }
    ReadEnds(columns, channel, batch, inserted, records);
    r := Success(Batch(records, rest));
  }

  /** `insertIntoTableReplace` as the source writes it, statement by statement. */
  method BuildReplace(table: string, columns: seq<string>, channel: seq<Row>, batch: int, plan: TxnPlan)
    returns (r: Insert)
    ensures r == InsertIntoTableReplace(table, columns, channel, batch, plan)
  {
    if plan.getColumns.Err? {
      return Failed(GetColumns(plan.getColumns.fault));
    }
    var buf, read := ReplaceLoop(table, columns, channel, batch);
    if read.Failure? {
      return Crashed(read.error);
    }
    var inserted := |read.value.records|;
    if inserted == 0 {
      return Wrote(Inserted([], [], read.value.rest));
    }
    if plan.foreignKeys.Err? {
      return Failed(DisableForeignKeys(plan.foreignKeys.fault));
    }
    if plan.exec.Err? {
      return Failed(ExecuteQuery(plan.exec.fault));
    }
    r := Wrote(Inserted([DisableForeignKeyChecks, buf], read.value.records, read.value.rest));
  }
}

=== FILE: tables.dfy ===
/**
 * Dumping one table: `trunkInsert` wraps one batch in a transaction, and
 * `DumpTable` runs the once-guard and then calls `trunkInsert` while the last
 * batch was full. Every database call has a scripted outcome: the i-th
 * transaction follows the i-th `TxnPlan`, and transactions beyond the script
 * see every call succeed.
 */
module Tables {
  import opened Base
  import opened Values
  import opened Batches
  import opened Strategies
  import opened Session

  /** A committed transaction: the statements it executed and the records it
      inserted. The count `trunkInsert` returns is the number of records. */
  datatype Txn = Txn(statements: seq<string>, records: seq<seq<string>>)

  /** The outcome of `trunkInsert`: committed (it returns the count and nil),
      failed (it returns 0 and the error, after rolling back if the insert
      failed), or crashed on an unsupported value. */
  datatype Trunk =
    | Committed(txn: Txn, rest: seq<Row>)
    | TrunkFailed(err: Error, rolledBack: bool)
    | TrunkCrashed(value: Value)

  /**
   * `trunkInsert`: begin, run the strategy, roll back if it failed, commit.
   * A committed batch holds the next `TakeCount` rows of the channel in
   * order; a failure rolls back exactly when the insert itself failed.
   */
  function TrunkInsert(strategy: Strategy, table: string, columns: seq<string>, channel: seq<Row>, batch: int,
                       plan: TxnPlan): (r: Trunk)
    ensures r.Committed? <==> plan.begin.Ok? && plan.commit.Ok?
                              && RunStrategy(strategy, table, columns, channel, batch, plan).Wrote?
    ensures r.Committed? ==> |r.txn.records| == TakeCount(|channel|, batch)
                             && |r.rest| == |channel| - |r.txn.records|
    ensures r.TrunkFailed? ==> (r.rolledBack <==> r.err.InsertRows?)
    ensures r.TrunkFailed? && r.err.InsertRows? ==> plan.begin.Ok?
    ensures r.TrunkCrashed? ==> plan.begin.Ok? && r.value.Other?
    ensures plan.begin.Err? ==> r == TrunkFailed(OpenTransaction(plan.begin.fault), false)
    ensures var s := RunStrategy(strategy, table, columns, channel, batch, plan);
            && (plan.begin.Ok? && s.Failed? ==> r == TrunkFailed(InsertRows(s.err), true))
            && (plan.begin.Ok? && s.Crashed? ==> r == TrunkCrashed(s.value))
            && (plan.begin.Ok? && s.Wrote? && plan.commit.Err? ==> r == TrunkFailed(CommitTransaction(plan.commit.fault), false))
            && (r.Committed? ==> s.Wrote? && r.txn == Txn(s.inserted.statements, s.inserted.records)
                                 && r.rest == s.inserted.rest)
  {
    if plan.begin.Err? then TrunkFailed(OpenTransaction(plan.begin.fault), false)
    else match RunStrategy(strategy, table, columns, channel, batch, plan)
      case Failed(e) => TrunkFailed(InsertRows(e), true)
      case Crashed(v) => TrunkCrashed(v)
      case Wrote(ins) =>
        if plan.commit.Err? then TrunkFailed(CommitTransaction(plan.commit.fault), false)
        else Committed(Txn(ins.statements, ins.records), ins.rest)
  }

  /** A committed batch holds the next rows of the channel, in order, and
      its records are their encodings. */
  lemma TrunkConsumes(strategy: Strategy, table: string, columns: seq<string>, channel: seq<Row>, batch: int,
                      plan: TxnPlan)
    requires TrunkInsert(strategy, table, columns, channel, batch, plan).Committed?
    ensures var r := TrunkInsert(strategy, table, columns, channel, batch, plan);
            var n := |r.txn.records|;
            channel == channel[..n] + r.rest && EncodeRows(columns, channel[..n]) == Success(r.txn.records)
  {
  }

  /** Why the loop stopped: a batch came back short, `log.Panic` on an error,
      or the runtime panic of the forced cast. */
  datatype Stop = Finished | Aborted(err: Error, rolledBack: bool) | CastPanicked(value: Value)

  /** The transactions the loop committed, in order, and why it stopped. */
  datatype Drained = Drained(txns: seq<Txn>, stop: Stop)

  function PlanAt(plans: seq<TxnPlan>): TxnPlan
  {
    if |plans| > 0 then plans[0] else AllOk
  }

  function Later(plans: seq<TxnPlan>): seq<TxnPlan>
  {
    if |plans| > 0 then plans[1..] else []
  }

  /** The number of rows the transactions inserted. */
  function Count(txns: seq<Txn>): nat
  {
    if |txns| == 0 then 0 else |txns[0].records| + Count(txns[1..])
  }

  /** All records the transactions inserted, in commit order. */
  function Records(txns: seq<Txn>): seq<seq<string>>
  {
    if |txns| == 0 then [] else txns[0].records + Records(txns[1..])
  }

  /** The sizes of the committed batches, in order. */
  function Sizes(txns: seq<Txn>): seq<nat>
  {
    if |txns| == 0 then [] else [|txns[0].records|] + Sizes(txns[1..])
  }

  /**
   * The `for inserted == batch` loop of `DumpTable`. It diverges only when
   * `batch` is 0 and the channel is already exhausted (see `ZeroBatchSpins`),
   * which the requires excludes.
   */
  function Drain(strategy: Strategy, table: string, columns: seq<string>, rows: seq<Row>, batch: int,
                 plans: seq<TxnPlan>): Drained
    requires batch != 0 || |rows| > 0
    decreases |rows|
  {
    match TrunkInsert(strategy, table, columns, rows, batch, PlanAt(plans))
    case TrunkFailed(e, rolledBack) => Drained([], Aborted(e, rolledBack))
    case TrunkCrashed(v) => Drained([], CastPanicked(v))
    case Committed(txn, rest) =>
      if |txn.records| == batch then
        assert batch > 0;
        var more := Drain(strategy, table, columns, rest, batch, Later(plans));
        Drained([txn] + more.txns, more.stop)
      else Drained([txn], Finished)
  }

  /** The loop's batch sizes are bounded whatever the database does; see
      `SizesBounded`. */
  lemma {:induction false} DrainBatchSizes(strategy: Strategy, table: string, columns: seq<string>,
                                           rows: seq<Row>, batch: int, plans: seq<TxnPlan>)
    requires batch != 0 || |rows| > 0
    ensures SizesBounded(Drain(strategy, table, columns, rows, batch, plans), |rows|, batch)
    decreases |rows|
  {
    var t := TrunkInsert(strategy, table, columns, rows, batch, PlanAt(plans));
    if t.Committed? {
      if |t.txn.records| == batch {
        FullBatchProgress(strategy, table, columns, rows, batch, PlanAt(plans));
        DrainBatchSizes(strategy, table, columns, t.rest, batch, Later(plans));
        DrainCommitted(strategy, table, columns, rows, batch, plans, t.txn, t.rest);
        SizesAfterFullBatch(t.txn, Drain(strategy, table, columns, t.rest, batch, Later(plans)), |rows|, batch);
      } else {
        DrainCommitted(strategy, table, columns, rows, batch, plans, t.txn, t.rest);
        OneTxn([t.txn]);
      }
    }
  }

  /**
   * Whatever the database does, every committed transaction but the last is
   * a full batch, the loop never commits more rows than the channel holds,
   * and a loop that finishes with a positive batch size has consumed every
   * row.
   */
  ghost predicate SizesBounded(r: Drained, rows: nat, batch: int)
  {
    && Count(r.txns) <= rows
    && (forall i :: 0 <= i < |r.txns| - 1 ==> |r.txns[i].records| == batch)
    && (r.stop.Finished? ==> |r.txns| >= 1)
    && (r.stop.Finished? && batch > 0 ==> Count(r.txns) == rows)
  }

  /** A full batch is only committed when the batch size is positive, and it
      takes rows off the channel. */
  lemma FullBatchProgress(strategy: Strategy, table: string, columns: seq<string>, rows: seq<Row>, batch: int,
                          plan: TxnPlan)
    requires batch != 0 || |rows| > 0
    requires var t := TrunkInsert(strategy, table, columns, rows, batch, plan);
             t.Committed? && |t.txn.records| == batch
    ensures batch > 0
    ensures |TrunkInsert(strategy, table, columns, rows, batch, plan).rest| == |rows| - batch
  {
  }

  lemma SizesAfterFullBatch(txn: Txn, more: Drained, rows: nat, batch: int)
    requires batch > 0 && |txn.records| == batch && batch <= rows
    requires SizesBounded(more, rows - batch, batch)
    ensures SizesBounded(Drained([txn] + more.txns, more.stop), rows, batch)
  {
    var all := [txn] + more.txns;
    CountRecordsCons(txn, more.txns);
    assert forall i :: 1 <= i < |all| ==> all[i] == more.txns[i - 1];
  }

  /** The committed transactions hold the first `Count` rows of the channel,
      each exactly once and in order. */
  lemma {:induction false} DrainConsumesInOrder(strategy: Strategy, table: string, columns: seq<string>,
                                                rows: seq<Row>, batch: int, plans: seq<TxnPlan>)
    requires batch != 0 || |rows| > 0
    ensures ConsumedInOrder(columns, rows, Drain(strategy, table, columns, rows, batch, plans))
    decreases |rows|
  {
    var t := TrunkInsert(strategy, table, columns, rows, batch, PlanAt(plans));
    if t.Committed? {
      TrunkConsumes(strategy, table, columns, rows, batch, PlanAt(plans));
      DrainCommitted(strategy, table, columns, rows, batch, plans, t.txn, t.rest);
      if |t.txn.records| == batch {
        DrainConsumesInOrder(strategy, table, columns, t.rest, batch, Later(plans));
        ConsumedAfterFullBatch(columns, rows, t.txn, t.rest, Drain(strategy, table, columns, t.rest, batch, Later(plans)));
      } else {
        CountRecordsCons(t.txn, []);
        assert [t.txn] + [] == [t.txn];
        assert t.txn.records + [] == t.txn.records;
      }
    } else {
      assert rows[..0] == [];
    }
  }

  /** The committed transactions' records encode the first `Count` rows. */
  ghost predicate ConsumedInOrder(columns: seq<string>, rows: seq<Row>, r: Drained)
  {
    Count(r.txns) <= |rows| && EncodeRows(columns, rows[..Count(r.txns)]) == Success(Records(r.txns))
  }

  lemma ConsumedAfterFullBatch(columns: seq<string>, rows: seq<Row>, txn: Txn, rest: seq<Row>, more: Drained)
    requires |txn.records| <= |rows| && rows == rows[..|txn.records|] + rest
    requires EncodeRows(columns, rows[..|txn.records|]) == Success(txn.records)
    requires ConsumedInOrder(columns, rest, more)
    ensures ConsumedInOrder(columns, rows, Drained([txn] + more.txns, more.stop))
  {
    CountRecordsCons(txn, more.txns);
    EncodePrefixesAppend(columns, rows, |txn.records|, rest, txn.records, Count(more.txns), Records(more.txns));
  }

  lemma CountRecordsCons(txn: Txn, more: seq<Txn>)
    ensures Count([txn] + more) == |txn.records| + Count(more)
    ensures Records([txn] + more) == txn.records + Records(more)
  {
    assert ([txn] + more)[1..] == more;
  }

  /** Encoded consecutive stretches of the channel make an encoded prefix. */
  lemma EncodePrefixesAppend(columns: seq<string>, rows: seq<Row>, n: nat, rest: seq<Row>,
                             a: seq<seq<string>>, m: nat, b: seq<seq<string>>)
    requires n <= |rows| && rows == rows[..n] + rest
    requires EncodeRows(columns, rows[..n]) == Success(a)
    requires m <= |rest| && EncodeRows(columns, rest[..m]) == Success(b)
    ensures n + m <= |rows| && EncodeRows(columns, rows[..n + m]) == Success(a + b)
  {
    assert rows[..n + m] == rows[..n] + rest[..m];
    EncodeRowsAppend(columns, rows[..n], rest[..m]);
  }

  /**
   * With a batch size of 0 and an exhausted channel, a transaction in which
   * every call succeeds commits 0 rows and leaves the channel as it was, so
   * `inserted == batch` holds again: the source's loop never ends.
   */
  lemma ZeroBatchSpins(strategy: Strategy, table: string, columns: seq<string>)
    ensures var t := TrunkInsert(strategy, table, columns, [], 0, AllOk);
            t.Committed? && |t.txn.records| == 0 && t.rest == []
  {
  }

  /**
   * A batch size of 0 or less reads one row before comparing the count with
   * the batch size and never sees a full batch: the loop commits at most one
   * transaction of at most one row.
   */
  lemma NonPositiveBatchDumpsOneRow(strategy: Strategy, table: string, columns: seq<string>,
                                    rows: seq<Row>, batch: int, plans: seq<TxnPlan>)
    requires batch <= 0 && (batch != 0 || |rows| > 0)
    ensures var r := Drain(strategy, table, columns, rows, batch, plans);
            |r.txns| <= 1 && Count(r.txns) <= 1
  {
  }

  /** When every call succeeds and the rows one batch reads encode, a
      transaction commits the next `TakeCount` rows. */
  lemma TrunkAllOk(strategy: Strategy, table: string, columns: seq<string>, rows: seq<Row>, batch: int)
    requires Encodable(columns, rows[..TakeCount(|rows|, batch)])
    ensures var t := TrunkInsert(strategy, table, columns, rows, batch, AllOk);
            var n := TakeCount(|rows|, batch);
            && t.Committed? && |t.txn.records| == n && rows == rows[..n] + t.rest
            && EncodeRows(columns, rows[..n]) == Success(t.txn.records)
  {
  }

  /**
   * When every call succeeds and every row encodes, the loop finishes after
   * committing batches of the sizes `BatchSizes` gives (so `rows / batch + 1`
   * transactions, see `BatchSizesShape`), and the records of all of them are
   * the encodings of every row, each once and in channel order.
   */
  lemma {:induction false} DrainAllOk(strategy: Strategy, table: string, columns: seq<string>,
                                      rows: seq<Row>, batch: int)
    requires batch > 0 && Encodable(columns, rows)
    ensures var r := Drain(strategy, table, columns, rows, batch, []);
            && r.stop.Finished?
            && Sizes(r.txns) == BatchSizes(|rows|, batch)
            && EncodeRows(columns, rows) == Success(Records(r.txns))
    decreases |rows|
  {
    if |rows| >= batch {
      EncodableSuffix(columns, rows, batch, rows[batch..]);
      DrainAllOk(strategy, table, columns, rows[batch..], batch);
      DrainAllOkFullStep(strategy, table, columns, rows, batch);
    } else {
      assert PlanAt([]) == AllOk;
      DrainLastStep(strategy, table, columns, rows, batch, []);
      OneTxn(Drain(strategy, table, columns, rows, batch, []).txns);
    }
  }

  /** One full batch in front of a loop that dumps the rest keeps the
      `DrainAllOk` shape. */
  lemma DrainAllOkFullStep(strategy: Strategy, table: string, columns: seq<string>, rows: seq<Row>, batch: int)
    requires 0 < batch <= |rows| && Encodable(columns, rows)
    requires var more := Drain(strategy, table, columns, rows[batch..], batch, []);
             && more.stop.Finished?
             && Sizes(more.txns) == BatchSizes(|rows| - batch, batch)
             && EncodeRows(columns, rows[batch..]) == Success(Records(more.txns))
    ensures var r := Drain(strategy, table, columns, rows, batch, []);
            && r.stop.Finished?
            && Sizes(r.txns) == BatchSizes(|rows|, batch)
            && EncodeRows(columns, rows) == Success(Records(r.txns))
  {
    assert PlanAt([]) == AllOk && Later([]) == [];
    DrainFullStep(strategy, table, columns, rows, batch, []);
    var r, more := Drain(strategy, table, columns, rows, batch, []), Drain(strategy, table, columns, rows[batch..], batch, []);
    AllOkAfterFullBatch(columns, rows, batch, r, more);
  }

  lemma AllOkAfterFullBatch(columns: seq<string>, rows: seq<Row>, batch: int, r: Drained, more: Drained)
    requires 0 < batch <= |rows|
    requires |r.txns| == 1 + |more.txns| && r.txns[1..] == more.txns && r.stop == more.stop
    requires |r.txns[0].records| == batch && EncodeRows(columns, rows[..batch]) == Success(r.txns[0].records)
    requires more.stop.Finished? && Sizes(more.txns) == BatchSizes(|rows| - batch, batch)
    requires EncodeRows(columns, rows[batch..]) == Success(Records(more.txns))
    ensures r.stop.Finished? && Sizes(r.txns) == BatchSizes(|rows|, batch)
    ensures EncodeRows(columns, rows) == Success(Records(r.txns))
  {
    assert r.txns == [r.txns[0]] + more.txns;
    CountRecordsCons(r.txns[0], more.txns);
    assert rows == rows[..batch] + rows[batch..];
    EncodeRowsAppend(columns, rows[..batch], rows[batch..]);
  }

  lemma OneTxn(txns: seq<Txn>)
    requires |txns| == 1
    ensures Sizes(txns) == [|txns[0].records|] && Records(txns) == txns[0].records && Count(txns) == |txns[0].records|
  {
    assert txns[1..] == [];
  }

  /** A first transaction in which every call succeeds, on a channel holding
      fewer encodable rows than a batch, commits all of them and ends the loop. */
  lemma DrainLastStep(strategy: Strategy, table: string, columns: seq<string>, rows: seq<Row>, batch: int,
                      plans: seq<TxnPlan>)
    requires 0 <= |rows| < batch && Encodable(columns, rows) && PlanAt(plans) == AllOk
    ensures var r := Drain(strategy, table, columns, rows, batch, plans);
            && r.stop.Finished? && |r.txns| == 1
            && EncodeRows(columns, rows) == Success(r.txns[0].records)
  {
    EncodablePrefix(columns, rows, TakeCount(|rows|, batch));
    TrunkAllOk(strategy, table, columns, rows, batch);
    var t := TrunkInsert(strategy, table, columns, rows, batch, AllOk);
    DrainCommitted(strategy, table, columns, rows, batch, plans, t.txn, t.rest);
    assert rows[..|rows|] == rows;
  }

  /**
   * With every call succeeding, `trunkInsert` runs `rows / batch + 1` times:
   * `rows / batch` full batches, then one holding the remaining
   * `rows % batch` rows (none for an exact multiple), covering every row.
   */
  lemma DrainAllOkCalls(strategy: Strategy, table: string, columns: seq<string>, rows: seq<Row>, batch: int)
    requires batch > 0 && Encodable(columns, rows)
    ensures var r := Drain(strategy, table, columns, rows, batch, []);
            && |r.txns| == |rows| / batch + 1
            && (forall i :: 0 <= i < |r.txns| - 1 ==> |r.txns[i].records| == batch)
            && |r.txns[|r.txns| - 1].records| == |rows| % batch
            && Count(r.txns) == |rows|
  {
    var r := Drain(strategy, table, columns, rows, batch, []);
    DrainAllOk(strategy, table, columns, rows, batch);
    BatchSizesShape(|rows|, batch);
    SizesMeaning(r.txns);
  }

  /** `Sizes` lists each transaction's record count, and they add up to `Count`. */
  lemma {:induction false} SizesMeaning(txns: seq<Txn>)
    ensures |Sizes(txns)| == |txns|
    ensures forall i :: 0 <= i < |txns| ==> Sizes(txns)[i] == |txns[i].records|
    ensures Sum(Sizes(txns)) == Count(txns)
  {
    if |txns| > 0 {
      SizesMeaning(txns[1..]);
    }
  }

  /**
   * A transaction that cannot be opened ends the loop with `log.Panic` and
   * no rollback: if the first `k` transactions see every call succeed and
   * the next cannot begin, exactly `k` full batches were committed.
   */
  lemma DrainBeginFails(strategy: Strategy, table: string, columns: seq<string>,
                        rows: seq<Row>, batch: int, plans: seq<TxnPlan>, k: nat)
    requires batch > 0 && k < |plans| && FullBatches(k, batch) <= |rows|
    requires Encodable(columns, rows[..FullBatches(k, batch)])
    requires forall i :: 0 <= i < k ==> plans[i] == AllOk
    requires plans[k].begin.Err?
    ensures AbortedAfter(Drain(strategy, table, columns, rows, batch, plans), k, batch, plans[k].begin.fault)
  {
    DrainStopsAfter(strategy, table, columns, rows, batch, plans, k);
  }

  /** How a transaction that does not commit stops the loop. */
  function StopOf(t: Trunk): (stop: Stop)
    requires !t.Committed?
    ensures !stop.Finished?
  {
    if t.TrunkFailed? then Aborted(t.err, t.rolledBack) else CastPanicked(t.value)
  }

  /** The loop committed `k` full batches and then stopped with `stop`. */
  ghost predicate StoppedAfter(r: Drained, k: nat, batch: int, stop: Stop)
  {
    && r.stop == stop
    && |r.txns| == k
    && (forall i :: 0 <= i < k ==> |r.txns[i].records| == batch)
  }

  /**
   * When the first `k` transactions succeed on full batches and the next one
   * does not commit, whatever the reason, the loop stops there: exactly the
   * `k` full batches stay committed, and the stop is that transaction's
   * failure (rolled back only for a failed insert) or its cast panic. Only
   * the rows of the `k` full batches need to encode, since only they are
   * read before.
   */
  lemma DrainStopsAfter(strategy: Strategy, table: string, columns: seq<string>,
                        rows: seq<Row>, batch: int, plans: seq<TxnPlan>, k: nat)
    requires batch > 0 && k < |plans| && FullBatches(k, batch) <= |rows|
    requires Encodable(columns, rows[..FullBatches(k, batch)])
    requires forall i :: 0 <= i < k ==> plans[i] == AllOk
    requires !TrunkInsert(strategy, table, columns, rows[FullBatches(k, batch)..], batch, plans[k]).Committed?
    ensures StoppedAfter(Drain(strategy, table, columns, rows, batch, plans), k, batch,
                         StopOf(TrunkInsert(strategy, table, columns, rows[FullBatches(k, batch)..], batch, plans[k])))
  {
    var m := FullBatches(k, batch);
    DrainSkipsFullBatches(strategy, table, columns, rows, batch, plans, k);
    assert plans[k..][0] == plans[k];
    StopsNow(strategy, table, columns, rows[m..], batch, plans[k..]);
  }

  /**
   * When the first `k` transactions see every call succeed and their full
   * batches encode, the loop commits those `k` full batches and then runs
   * as it would on the rows and plans that remain.
   */
  lemma {:induction false} DrainSkipsFullBatches(strategy: Strategy, table: string, columns: seq<string>,
                                                 rows: seq<Row>, batch: int, plans: seq<TxnPlan>, k: nat)
    requires batch > 0 && k <= |plans| && FullBatches(k, batch) <= |rows|
    requires Encodable(columns, rows[..FullBatches(k, batch)])
    requires forall i :: 0 <= i < k ==> plans[i] == AllOk
    ensures var r := Drain(strategy, table, columns, rows, batch, plans);
            var tail := Drain(strategy, table, columns, rows[FullBatches(k, batch)..], batch, plans[k..]);
            && |r.txns| == k + |tail.txns| && r.txns[k..] == tail.txns && r.stop == tail.stop
            && (forall i :: 0 <= i < k ==> |r.txns[i].records| == batch)
    decreases k
  {
    if k == 0 {
      assert rows[FullBatches(k, batch)..] == rows && plans[k..] == plans;
    } else {
      var m, n := FullBatches(k, batch), FullBatches(k - 1, batch);
      assert PlanAt(plans) == AllOk && Later(plans) == plans[1..];
      assert forall i :: 0 <= i < k - 1 ==> plans[1..][i] == AllOk;
      ShiftFullBatch(columns, rows, batch, k);
      DrainSkipsFullBatches(strategy, table, columns, rows[batch..], batch, plans[1..], k - 1);
      assert rows[batch..][n..] == rows[m..] && plans[1..][k - 1..] == plans[k..];
      SkipsAfterFullBatch(strategy, table, columns, rows, batch, plans, k,
                          Drain(strategy, table, columns, rows[m..], batch, plans[k..]));
    }
  }

  /** One full batch in front of `k - 1` skipped full batches gives `k`. */
  lemma SkipsAfterFullBatch(strategy: Strategy, table: string, columns: seq<string>, rows: seq<Row>, batch: int,
                            plans: seq<TxnPlan>, k: nat, tail: Drained)
    requires 0 < batch <= |rows| && k > 0 && Encodable(columns, rows[..batch]) && PlanAt(plans) == AllOk
    requires var more := Drain(strategy, table, columns, rows[batch..], batch, Later(plans));
             && |more.txns| == k - 1 + |tail.txns| && more.txns[k - 1..] == tail.txns && more.stop == tail.stop
             && (forall i :: 0 <= i < k - 1 ==> |more.txns[i].records| == batch)
    ensures var r := Drain(strategy, table, columns, rows, batch, plans);
            && |r.txns| == k + |tail.txns| && r.txns[k..] == tail.txns && r.stop == tail.stop
            && (forall i :: 0 <= i < k ==> |r.txns[i].records| == batch)
  {
    FirstFullBatch(strategy, table, columns, rows, batch, plans);
    var r, more := Drain(strategy, table, columns, rows, batch, plans),
                   Drain(strategy, table, columns, rows[batch..], batch, Later(plans));
    SkipCombine(r, more, tail, k, batch);
  }

  lemma SkipCombine(r: Drained, more: Drained, tail: Drained, k: nat, batch: int)
    requires k > 0 && |r.txns| == 1 + |more.txns| && |r.txns[0].records| == batch
    requires r.txns[1..] == more.txns && r.stop == more.stop
    requires |more.txns| == k - 1 + |tail.txns| && more.txns[k - 1..] == tail.txns && more.stop == tail.stop
    requires forall i :: 0 <= i < k - 1 ==> |more.txns[i].records| == batch
    ensures |r.txns| == k + |tail.txns| && r.txns[k..] == tail.txns && r.stop == tail.stop
    ensures forall i :: 0 <= i < k ==> |r.txns[i].records| == batch
  {
    assert forall i :: 1 <= i < |r.txns| ==> r.txns[i] == more.txns[i - 1];
    assert r.txns[k..] == more.txns[k - 1..];
  }

  /** A first transaction that does not commit stops the loop before any commit. */
  lemma StopsNow(strategy: Strategy, table: string, columns: seq<string>, rows: seq<Row>, batch: int,
                 plans: seq<TxnPlan>)
    requires batch > 0 && |plans| > 0
    requires !TrunkInsert(strategy, table, columns, rows, batch, plans[0]).Committed?
    ensures StoppedAfter(Drain(strategy, table, columns, rows, batch, plans), 0, batch,
                         StopOf(TrunkInsert(strategy, table, columns, rows, batch, plans[0])))
  {
    assert PlanAt(plans) == plans[0];
  }

  /** A first transaction in which every call succeeds, on a channel whose
      first full batch encodes, commits that batch and the loop carries on
      with the rest. */
  lemma FirstFullBatch(strategy: Strategy, table: string, columns: seq<string>, rows: seq<Row>, batch: int,
                       plans: seq<TxnPlan>)
    requires 0 < batch <= |rows| && Encodable(columns, rows[..batch]) && PlanAt(plans) == AllOk
    ensures var r := Drain(strategy, table, columns, rows, batch, plans);
            var more := Drain(strategy, table, columns, rows[batch..], batch, Later(plans));
            && |r.txns| == 1 + |more.txns| && |r.txns[0].records| == batch
            && r.txns[1..] == more.txns && r.stop == more.stop
  {
    assert TakeCount(|rows|, batch) == batch;
    TrunkAllOk(strategy, table, columns, rows, batch);
    var t := TrunkInsert(strategy, table, columns, rows, batch, AllOk);
    DrainCommitted(strategy, table, columns, rows, batch, plans, t.txn, t.rest);
    assert t.rest == rows[batch..];
    var more := Drain(strategy, table, columns, rows[batch..], batch, Later(plans));
    assert ([t.txn] + more.txns)[1..] == more.txns;
  }

  /** After the first full batch, the remaining `k - 1` full batches and the
      rows after them are those of the whole channel, shifted by a batch. */
  lemma ShiftFullBatch(columns: seq<string>, rows: seq<Row>, batch: int, k: nat)
    requires batch > 0 && k > 0 && FullBatches(k, batch) <= |rows|
    requires Encodable(columns, rows[..FullBatches(k, batch)])
    ensures batch <= |rows| && Encodable(columns, rows[..batch])
    ensures var n := FullBatches(k - 1, batch);
            && n <= |rows[batch..]|
            && rows[batch..][n..] == rows[FullBatches(k, batch)..]
            && Encodable(columns, rows[batch..][..n])
  {
    var m, n := FullBatches(k, batch), FullBatches(k - 1, batch);
    assert m == batch + n;
    assert forall i :: 0 <= i < batch ==> rows[..batch][i] == rows[..m][i];
    assert forall i :: 0 <= i < n ==> rows[batch..][..n][i] == rows[..m][batch + i];
  }

  /**
   * The causes `DumpTable` panics on after `k` full batches: a failed insert
   * is rolled back and wrapped as `InsertRows`, a failed commit is not rolled
   * back, and a value of unhandled type panics in the cast. The earlier
   * batches stay committed in each case.
   */
  lemma DrainStopCauses(strategy: Strategy, table: string, columns: seq<string>,
                        rows: seq<Row>, batch: int, plans: seq<TxnPlan>, k: nat)
    requires batch > 0 && k < |plans| && FullBatches(k, batch) <= |rows|
    requires Encodable(columns, rows[..FullBatches(k, batch)])
    requires forall i :: 0 <= i < k ==> plans[i] == AllOk
    requires plans[k].begin.Ok?
    ensures var m := FullBatches(k, batch);
            var s := RunStrategy(strategy, table, columns, rows[m..], batch, plans[k]);
            var r := Drain(strategy, table, columns, rows, batch, plans);
            && (s.Failed? ==> StoppedAfter(r, k, batch, Aborted(InsertRows(s.err), true)))
            && (s.Crashed? ==> StoppedAfter(r, k, batch, CastPanicked(s.value)))
            && (s.Wrote? && plans[k].commit.Err? ==>
                  StoppedAfter(r, k, batch, Aborted(CommitTransaction(plans[k].commit.fault), false)))
  {
    var m := FullBatches(k, batch);
    var t := TrunkInsert(strategy, table, columns, rows[m..], batch, plans[k]);
    if !t.Committed? {
      DrainStopsAfter(strategy, table, columns, rows, batch, plans, k);
    }
  }

  /** A first transaction in which every call succeeds, on a channel holding
      at least a batch of encodable rows, commits a full batch and the loop
      carries on with the rest. */
  lemma DrainFullStep(strategy: Strategy, table: string, columns: seq<string>, rows: seq<Row>, batch: int,
                      plans: seq<TxnPlan>)
    requires 0 < batch <= |rows| && Encodable(columns, rows) && PlanAt(plans) == AllOk
    ensures Encodable(columns, rows[batch..])
    ensures var r := Drain(strategy, table, columns, rows, batch, plans);
            var more := Drain(strategy, table, columns, rows[batch..], batch, Later(plans));
            && |r.txns| == 1 + |more.txns| && |r.txns[0].records| == batch
            && r.txns[1..] == more.txns && r.stop == more.stop
            && EncodeRows(columns, rows[..batch]) == Success(r.txns[0].records)
  {
    EncodablePrefix(columns, rows, TakeCount(|rows|, batch));
    TrunkAllOk(strategy, table, columns, rows, batch);
    var t := TrunkInsert(strategy, table, columns, rows, batch, AllOk);
    DrainCommitted(strategy, table, columns, rows, batch, plans, t.txn, t.rest);
    assert t.rest == rows[batch..];
    EncodableSuffix(columns, rows, batch, t.rest);
    var more := Drain(strategy, table, columns, rows[batch..], batch, Later(plans));
    assert ([t.txn] + more.txns)[1..] == more.txns;
  }

  /** The number of rows in `k` full batches, `k * batch`. */
  function FullBatches(k: nat, batch: int): (n: int)
    ensures batch >= 0 ==> n >= 0
  {
    if k == 0 then 0 else batch + FullBatches(k - 1, batch)
  }

  lemma {:induction false} FullBatchesProduct(k: nat, batch: int)
    ensures FullBatches(k, batch) == k * batch
  {
    if k > 0 {
      FullBatchesProduct(k - 1, batch);
    }
  }

  /** Every prefix of encodable rows is encodable. */
  lemma EncodablePrefix(columns: seq<string>, rows: seq<Row>, n: nat)
    requires n <= |rows| && Encodable(columns, rows)
    ensures Encodable(columns, rows[..n])
  {
    assert forall i :: 0 <= i < n ==> rows[..n][i] == rows[i];
  }

  /** The rows after an encodable prefix are encodable when all rows are. */
  lemma EncodableSuffix(columns: seq<string>, rows: seq<Row>, n: int, rest: seq<Row>)
    requires 0 <= n <= |rows| && rows == rows[..n] + rest && Encodable(columns, rows)
    ensures Encodable(columns, rest)
  {
    assert forall i :: 0 <= i < |rest| ==> rest[i] == rows[n + i];
  }

  /** The later transactions' plans are the script shifted by one. */
  lemma LaterShifts(plans: seq<TxnPlan>, k: nat)
    requires 0 < k < |plans| && forall i :: 0 <= i < k ==> plans[i] == AllOk
    ensures PlanAt(plans) == AllOk
    ensures k - 1 < |Later(plans)| && Later(plans)[k - 1] == plans[k]
    ensures forall i :: 0 <= i < k - 1 ==> Later(plans)[i] == AllOk
  {
  }

  /** The loop committed `k` full batches and stopped because the next
      transaction could not begin. */
  ghost predicate AbortedAfter(r: Drained, k: nat, batch: int, cause: Fault)
  {
    StoppedAfter(r, k, batch, Aborted(OpenTransaction(cause), false))
  }

  /** The result of `DumpTable` for the caller: the guard's error, or the
      loop's run. */
  datatype DumpOutcome = GuardError(cause: Fault) | Ran(drained: Drained)

  datatype Dump = Dump(dumper: Dumper, server: Server, outcome: DumpOutcome)

  /**
   * `DumpTable`: the once-guard, whose first-call error is returned before
   * any row is read, then the batch loop with the dumper's batch size.
   */
  function DumpTable(d: Dumper, s: Server, probe: Probe, strategy: Strategy, table: string, columns: seq<string>,
                     rows: seq<Row>, plans: seq<TxnPlan>): (r: Dump)
    requires || d.batch != 0 || |rows| > 0
             || (!d.inlineChecked && (probe.read.Err? || (!s.localInfile && probe.enable.Err?)))
    ensures r.dumper.inlineChecked && r.dumper.batch == d.batch
    ensures r.outcome.GuardError? <==> !d.inlineChecked && (probe.read.Err? || (!s.localInfile && probe.enable.Err?))
    ensures r.outcome.GuardError? ==> r.dumper.disableGlobalInline == d.disableGlobalInline
    ensures r.outcome.GuardError? ==> r.outcome.cause == (if probe.read.Err? then probe.read.fault else probe.enable.fault)
    ensures r.outcome.Ran? && !d.inlineChecked ==> r.server.localInfile
  {
    var g := EnsureLocalInfile(d, s, probe);
    if g.err.Some? then Dump(g.dumper, g.server, GuardError(g.err.value))
    else Dump(g.dumper, g.server, Ran(Drain(strategy, table, columns, rows, d.batch, plans)))
  }

  /** The loop as the source writes it: start with `inserted := batch`, and
      call `trunkInsert` while the last count equals the batch size. */
  method RunBatches(strategy: Strategy, table: string, columns: seq<string>, rows: seq<Row>, batch: int,
                    plans: seq<TxnPlan>) returns (r: Drained)
    requires batch != 0 || |rows| > 0
    ensures r == Drain(strategy, table, columns, rows, batch, plans)
  {
    var inserted := batch;
    var rest := rows;
    var ps := plans;
    var txns: seq<Txn> := [];
    assert txns + Drain(strategy, table, columns, rest, batch, ps).txns == Drain(strategy, table, columns, rows, batch, plans).txns;
    while inserted == batch
      invariant inserted == batch ==> (batch != 0 || |rest| > 0)
      invariant inserted == batch ==> Resumes(strategy, table, columns, rows, batch, plans, txns, rest, ps)
      invariant inserted != batch ==> Drain(strategy, table, columns, rows, batch, plans) == Drained(txns, Finished)
      decreases |rest| + (if inserted == batch then 1 else 0)
    {
      var t := TrunkInsert(strategy, table, columns, rest, batch, PlanAt(ps));
      match t {
        case TrunkFailed(e, rolledBack) =>
          ResumeStops(strategy, table, columns, rows, batch, plans, txns, rest, ps);
          return Drained(txns, Aborted(e, rolledBack));
        case TrunkCrashed(v) =>
          ResumeStops(strategy, table, columns, rows, batch, plans, txns, rest, ps);
          return Drained(txns, CastPanicked(v));
        case Committed(txn, left) =>
          ResumeCommitted(strategy, table, columns, rows, batch, plans, txns, rest, ps, txn, left);
          inserted := |txn.records|;
          txns := txns + [txn];
          rest := left;
          ps := Later(ps);
      }
    }
    r := Drained(txns, Finished);
  }

  /** The loop has committed `txns` and the rest of the run is the loop
      started on the remaining rows and plans. */
  ghost predicate Resumes(strategy: Strategy, table: string, columns: seq<string>, rows: seq<Row>, batch: int,
                          plans: seq<TxnPlan>, txns: seq<Txn>, rest: seq<Row>, ps: seq<TxnPlan>)
    requires batch != 0 || |rows| > 0
    requires batch != 0 || |rest| > 0
  {
    var more := Drain(strategy, table, columns, rest, batch, ps);
    Drain(strategy, table, columns, rows, batch, plans) == Drained(txns + more.txns, more.stop)
  }

  /** A transaction that does not commit ends the run with what was committed so far. */
  lemma ResumeStops(strategy: Strategy, table: string, columns: seq<string>, rows: seq<Row>, batch: int,
                    plans: seq<TxnPlan>, txns: seq<Txn>, rest: seq<Row>, ps: seq<TxnPlan>)
    requires batch != 0 || |rows| > 0
    requires batch != 0 || |rest| > 0
    requires Resumes(strategy, table, columns, rows, batch, plans, txns, rest, ps)
    requires !TrunkInsert(strategy, table, columns, rest, batch, PlanAt(ps)).Committed?
    ensures var t := TrunkInsert(strategy, table, columns, rest, batch, PlanAt(ps));
            Drain(strategy, table, columns, rows, batch, plans)
              == Drained(txns, if t.TrunkFailed? then Aborted(t.err, t.rolledBack) else CastPanicked(t.value))
  {
    assert txns + [] == txns;
  }

  /** A committed transaction either ends the run (a short batch) or the run
      resumes after it with the rows and plans that follow. */
  lemma ResumeCommitted(strategy: Strategy, table: string, columns: seq<string>, rows: seq<Row>, batch: int,
                        plans: seq<TxnPlan>, txns: seq<Txn>, rest: seq<Row>, ps: seq<TxnPlan>, txn: Txn, left: seq<Row>)
    requires batch != 0 || |rows| > 0
    requires batch != 0 || |rest| > 0
    requires Resumes(strategy, table, columns, rows, batch, plans, txns, rest, ps)
    requires TrunkInsert(strategy, table, columns, rest, batch, PlanAt(ps)) == Committed(txn, left)
    ensures |txn.records| == batch ==> batch > 0 && |left| < |rest|
    ensures |txn.records| == batch ==> Resumes(strategy, table, columns, rows, batch, plans, txns + [txn], left, Later(ps))
    ensures |txn.records| != batch ==> |left| <= |rest|
    ensures |txn.records| != batch ==> Drain(strategy, table, columns, rows, batch, plans) == Drained(txns + [txn], Finished)
  {
    DrainCommitted(strategy, table, columns, rest, batch, ps, txn, left);
    if |txn.records| == batch {
      var more := Drain(strategy, table, columns, left, batch, Later(ps));
      assert txns + [txn] + more.txns == txns + ([txn] + more.txns);
    }
  }

  /** One turn of the loop after a commit: a full batch continues with the
      rest of the channel and the later plans, a short one finishes. */
  lemma DrainCommitted(strategy: Strategy, table: string, columns: seq<string>, rows: seq<Row>, batch: int,
                       plans: seq<TxnPlan>, txn: Txn, rest: seq<Row>)
    requires batch != 0 || |rows| > 0
    requires TrunkInsert(strategy, table, columns, rows, batch, PlanAt(plans)) == Committed(txn, rest)
    ensures |txn.records| == batch ==> batch > 0 && |rest| < |rows|
    ensures |txn.records| == batch ==>
              var more := Drain(strategy, table, columns, rest, batch, Later(plans));
              Drain(strategy, table, columns, rows, batch, plans) == Drained([txn] + more.txns, more.stop)
    ensures |txn.records| != batch ==> Drain(strategy, table, columns, rows, batch, plans) == Drained([txn], Finished)
  {
  }
}

=== FILE: values.dfy ===
/**
 * Row fields and their text encoding, the type switch both insertion
 * strategies run on every field: nil becomes `NULL`, a string stays as it is,
 * a byte slice becomes its raw text, and any other type reaches a forced
 * `.(string)` cast that panics.
 *
 * Go strings are byte strings. The model writes them as `seq<char>` and
 * represents byte k by the character with code k, so converting a byte slice
 * to text loses nothing.
 */
module Values {
  import opened Base

  type byte = x: int | 0 <= x < 0x100

  /** A field value as the row source delivers it. `Other` is any Go type
      the switch does not handle; only its name is kept. */
  datatype Value = Null | Text(text: string) | Blob(bytes: seq<byte>) | Other(typeName: string)

  /** A row: column name to value. */
  type Row = map<string, Value>

  const NullLiteral := "NULL"

  /** `row[col]`: a Go map yields nil for a missing key. */
  function Lookup(row: Row, column: string): (v: Value)
    ensures v != Null ==> column in row && row[column] == v
    ensures v == Null <==> column !in row || row[column] == Null
  {
    if column in row then row[column] else Null
  }

  /** `string(b)` for a byte slice `b`. */
  function BlobText(b: seq<byte>): (s: string)
    ensures |s| == |b|
    ensures forall i :: 0 <= i < |b| ==> s[i] as int == b[i]
  {
    seq(|b|, i requires 0 <= i < |b| => b[i] as char)
  }

  /** `[]byte(s)` for a string whose characters are all bytes. */
  function TextBytes(s: string): (b: seq<byte>)
    requires forall i :: 0 <= i < |s| ==> s[i] as int < 0x100
    ensures |b| == |s|
  {
    seq(|s|, i requires 0 <= i < |s| => s[i] as int)
  }

  /** The byte-slice conversion is lossless. */
  lemma BlobTextRoundTrip(b: seq<byte>)
    ensures TextBytes(BlobText(b)) == b
  {
  }

  /**
   * The encoding of one field. An unsupported value is the Failure carrying
   * that value (the source panics at the forced cast).
   */
  function Encode(v: Value): (r: Result<string, Value>)
    ensures r.Failure? <==> v.Other?
    ensures r.Failure? ==> r.error == v
    ensures v.Null? ==> r == Success(NullLiteral)
    ensures v.Text? ==> r == Success(v.text)
    ensures v.Blob? ==> r.Success? && |r.value| == |v.bytes|
                        && forall i :: 0 <= i < |v.bytes| ==> r.value[i] as int == v.bytes[i]
  {
    match v
    case Null => Success(NullLiteral)
    case Text(s) => Success(s)
    case Blob(b) => Success(BlobText(b))
    case Other(_) => Failure(v)
  }

  /** A column the row does not have encodes as `NULL`. */
  lemma MissingColumnIsNull(row: Row, column: string)
    requires column !in row
    ensures Encode(Lookup(row, column)) == Success(NullLiteral)
  {
  }

  /** The text "NULL" and a nil value encode to the same field. */
  lemma NullAndNullTextCollide()
    ensures Encode(Null) == Encode(Text("NULL"))
  {
  }

  /**
   * One row put "in the correct order and format": field i is the encoding
   * of the row's value for `columns[i]`. Fails with the first unsupported
   * value in column order, where the source's loop panics.
   */
  function EncodeRow(columns: seq<string>, row: Row): (r: Result<seq<string>, Value>)
    ensures r.Success? <==> forall i :: 0 <= i < |columns| ==> !Lookup(row, columns[i]).Other?
    ensures r.Success? ==> |r.value| == |columns|
    ensures r.Success? ==> forall i :: 0 <= i < |columns| ==> Encode(Lookup(row, columns[i])) == Success(r.value[i])
    ensures r.Failure? ==> exists i :: 0 <= i < |columns| && Lookup(row, columns[i]) == r.error && r.error.Other?
                                       && forall j :: 0 <= j < i ==> !Lookup(row, columns[j]).Other?
  {
    if |columns| == 0 then Success([])
    else
      var init := columns[..|columns| - 1];
      assert forall i :: 0 <= i < |init| ==> init[i] == columns[i];
      match EncodeRow(init, row)
      case Failure(v) => Failure(v)
      case Success(fields) =>
        match Encode(Lookup(row, columns[|columns| - 1]))
        case Failure(v) => Failure(v)
        case Success(f) => Success(fields + [f])
  }

  /** The nested loop over the columns, as the source writes it. */
  method EncodeFields(columns: seq<string>, row: Row) returns (r: Result<seq<string>, Value>)
    ensures r == EncodeRow(columns, row)
  {
    var values: seq<string> := [];
    var i := 0;
    while i < |columns|
      invariant 0 <= i <= |columns|
      invariant EncodeRow(columns[..i], row) == Success(values)
    {
      var v := Lookup(row, columns[i]);
      var field: string;
      match v {
        case Null => field := NullLiteral;
        case Text(s) => field := s;
        case Blob(b) => field := BlobText(b);
        case Other(_) =>
          EncodeRowFailsAt(columns, i, row, values);
          return Failure(v);
      }
      EncodeRowStep(columns, i, row, values);
      values := values + [field];
      i := i + 1;
    }
    assert columns[..i] == columns;
    r := Success(values);
  }

  /** Encoding one more column appends its field. */
  lemma EncodeRowStep(columns: seq<string>, i: nat, row: Row, values: seq<string>)
    requires i < |columns| && EncodeRow(columns[..i], row) == Success(values)
    requires !Lookup(row, columns[i]).Other?
    ensures EncodeRow(columns[..i + 1], row) == Success(values + [Encode(Lookup(row, columns[i])).value])
  {
    assert columns[..i + 1][..i] == columns[..i];
  }

  /** The first unsupported value, in column order, is the row's failure. */
  lemma EncodeRowFailsAt(columns: seq<string>, i: nat, row: Row, values: seq<string>)
    requires i < |columns| && EncodeRow(columns[..i], row) == Success(values)
    requires Lookup(row, columns[i]).Other?
    ensures EncodeRow(columns, row) == Failure(Lookup(row, columns[i]))
  {
    assert columns[..i + 1][..i] == columns[..i];
    if i + 1 < |columns| {
      EncodeRowPrefixFails(columns, i + 1, row);
    } else {
      assert columns[..i + 1] == columns;
    }
  }

  /** Once a prefix of the columns fails, the whole row fails the same way. */
  lemma EncodeRowPrefixFails(columns: seq<string>, k: nat, row: Row)
    requires k <= |columns|
    requires EncodeRow(columns[..k], row).Failure?
    ensures EncodeRow(columns, row) == EncodeRow(columns[..k], row)
  {
  }

  /** Every row of `rows` encodes. */
  predicate Encodable(columns: seq<string>, rows: seq<Row>)
  {
    forall i :: 0 <= i < |rows| ==> EncodeRow(columns, rows[i]).Success?
  }

  /** The records of a sequence of rows, in order; see `EncodeRowsMeaning`. */
  function EncodeRows(columns: seq<string>, rows: seq<Row>): (r: Result<seq<seq<string>>, Value>)
    ensures r.Success? ==> |r.value| == |rows|
  {
    if |rows| == 0 then Success([])
    else
      match EncodeRows(columns, rows[..|rows| - 1])
      case Failure(v) => Failure(v)
      case Success(records) =>
        match EncodeRow(columns, rows[|rows| - 1])
        case Failure(v) => Failure(v)
        case Success(fields) => Success(records + [fields])
  }

  /**
   * The rows encode exactly when each of them does; record i is then the
   * encoding of row i, with the same column order for every row. Otherwise
   * the failure is the unsupported value of the first row, in channel order,
   * that does not encode, which is where the read loop panics.
   */
  lemma EncodeRowsMeaning(columns: seq<string>, rows: seq<Row>)
    ensures var r := EncodeRows(columns, rows);
            && (r.Success? <==> Encodable(columns, rows))
            && (r.Success? ==> forall i :: 0 <= i < |rows| ==> EncodeRow(columns, rows[i]) == Success(r.value[i]))
            && (r.Success? ==> forall i :: 0 <= i < |rows| ==> |r.value[i]| == |columns|)
            && (r.Failure? ==> exists i :: && 0 <= i < |rows| && EncodeRow(columns, rows[i]) == Failure(r.error)
                                           && forall j :: 0 <= j < i ==> EncodeRow(columns, rows[j]).Success?)
  {
    EncodeRowsSucceed(columns, rows);
    EncodeRowsFirstFailure(columns, rows);
  }

  /** A successful encoding holds each row's encoding, in order. */
  lemma {:induction false} EncodeRowsSucceed(columns: seq<string>, rows: seq<Row>)
    ensures var r := EncodeRows(columns, rows);
            r.Success? ==> forall i :: 0 <= i < |rows| ==> EncodeRow(columns, rows[i]) == Success(r.value[i])
    decreases |rows|
  {
    if |rows| > 0 {
      var init := rows[..|rows| - 1];
      EncodeRowsSucceed(columns, init);
      assert forall i :: 0 <= i < |init| ==> init[i] == rows[i];
    }
  }

  /** A failed encoding fails at the first row, in channel order, that does
      not encode. */
  lemma {:induction false} EncodeRowsFirstFailure(columns: seq<string>, rows: seq<Row>)
    ensures var r := EncodeRows(columns, rows);
            r.Failure? ==> exists i :: && 0 <= i < |rows| && EncodeRow(columns, rows[i]) == Failure(r.error)
                                       && forall j :: 0 <= j < i ==> EncodeRow(columns, rows[j]).Success?
    decreases |rows|
  {
    if |rows| > 0 {
      var init := rows[..|rows| - 1];
      assert forall i :: 0 <= i < |init| ==> init[i] == rows[i];
      match EncodeRows(columns, init)
      case Failure(v) =>
        EncodeRowsFirstFailure(columns, init);
      case Success(records) =>
        EncodeRowsSucceed(columns, init);
        if EncodeRows(columns, rows).Failure? {
          FirstFailureIsLast(columns, rows, EncodeRows(columns, rows).error);
        }
    }
  }

  /** When every row but the last encodes and the last fails with `v`, the
      last row is the first one that fails. */
  lemma FirstFailureIsLast(columns: seq<string>, rows: seq<Row>, v: Value)
    requires |rows| > 0 && EncodeRow(columns, rows[|rows| - 1]) == Failure(v)
    requires forall i :: 0 <= i < |rows| - 1 ==> EncodeRow(columns, rows[i]).Success?
    ensures exists i :: && 0 <= i < |rows| && EncodeRow(columns, rows[i]) == Failure(v)
                        && forall j :: 0 <= j < i ==> EncodeRow(columns, rows[j]).Success?
  {
    var last := |rows| - 1;
    assert EncodeRow(columns, rows[last]) == Failure(v);
  }

  /** Once a prefix of the rows fails, all of them fail the same way. */
  lemma {:induction false} EncodeRowsPrefixFails(columns: seq<string>, rows: seq<Row>, k: nat)
    requires k <= |rows|
    requires EncodeRows(columns, rows[..k]).Failure?
    ensures EncodeRows(columns, rows) == EncodeRows(columns, rows[..k])
    decreases |rows| - k
  {
    if k < |rows| {
      assert rows[..k + 1][..k] == rows[..k];
      EncodeRowsPrefixFails(columns, rows, k + 1);
    } else {
      assert rows[..k] == rows;
    }
  }

  /** Encoding the concatenation of two row sequences concatenates their records. */
  lemma EncodeRowsAppend(columns: seq<string>, a: seq<Row>, b: seq<Row>)
    requires EncodeRows(columns, a).Success? && EncodeRows(columns, b).Success?
    ensures EncodeRows(columns, a + b) == Success(EncodeRows(columns, a).value + EncodeRows(columns, b).value)
  {
    var x, y := EncodeRows(columns, a).value, EncodeRows(columns, b).value;
    var ab := a + b;
    EncodeRowsMeaning(columns, a);
    EncodeRowsMeaning(columns, b);
    EncodeRowsMeaning(columns, ab);
    forall i | 0 <= i < |ab|
      ensures EncodeRow(columns, ab[i]) == Success((x + y)[i])
    {
      if i < |a| {
        assert ab[i] == a[i];
      } else {
        assert ab[i] == b[i - |a|];
      }
    }
    assert Encodable(columns, ab);
    var z := EncodeRows(columns, ab).value;
    assert |z| == |x + y|;
    forall i | 0 <= i < |z|
      ensures z[i] == (x + y)[i]
    {
      assert EncodeRow(columns, ab[i]) == Success(z[i]);
    }
    assert z == x + y;
  }
}
